=== FILE: README.md ===
# License back end: expiry, notifications and request transforms, in Dafny

This project models the parts of a license/asset management REST back end
(Express over MySQL) that hold logic of their own:

- **Expiry and notifications** (`controllers/notificationController.js`):
  - the dashboard summary query, which classifies licenses and maintenance
    contracts as expired or expiring soon;
  - the latest-notification query, which keeps only the newest rows of each
    license/contract group;
  - the webhook push, which formats those rows as one text digest and POSTs it
    with at most three attempts.
- **Small request/response transforms**:
  - the bearer-token check (`middlewares/authMiddleware.js`);
  - the dynamic `UPDATE admin_users SET ...` builder (`UserController.updateById`);
  - the multer callbacks (`middlewares/uploader.js`);
  - the `checkFileUrl` rewrite (`routes/licenseFile.js`);
  - the image-upload result mapping (`controllers/imageUploaderController.js`);
  - the `'N/A'` defaulting of the contract listing (`MaintenanceContractsController.getAll`);
  - the error handler of the server (`server.js`).

Everything is stated as pure functions over immutable datatypes:

- Calendar dates are day numbers, and "today" (`CURDATE()`) is a parameter.
- SQL NULL is `Option`. Comparisons with NULL are unknown, and `SUM` over an
  empty table is NULL.
- JavaScript values and their truthiness are the `JsValue` datatype.
- Anything the code delegates to a library or to the outside world is a
  parameter. That covers `jwt.verify`, the driver's `escape`,
  `Date.toLocaleString`, the answers to the webhook POSTs, `Date.now()` and
  `Math.random()`.

Modules, one per component:

| file | module | models |
|---|---|---|
| common.dfy | `Common` | JS values and truthiness, `toLowerCase`, `startsWith`, decimal text, `split`/`join`, query outcomes |
| auth.dfy | `Auth` | `checkAuthorization`, the shared `req.decoded.user_id` guard |
| expiry.dfy | `Expiry` | the expiry classifier, `getSummaryCount` |
| resolver.dfy | `Resolver` | the latest-per-entity query |
| webhook.dfy | `Webhook` | `getAllNotifications`, digest, retry loop, `getNotificationsForWebhook` |
| users.dfy | `Users` | `updateById` / `executeUpdate` |
| uploads.dfy | `Uploads` | multer callbacks, `checkFileUrl`, `saveImage`, `uploadSingleImage`, `uploadMultipleImages` |
| contracts.dfy | `MaintenanceContracts` | `getAll` |
| errors.dfy | `ErrorHandler` | `Server.errorHandler` |

Behaviour that is easy to get wrong:

- **Ties in the latest-notification query.** Rows of one group that tie at
  the group's latest `created_at` are all returned. There is no tie-break.
- **The deep link of a contract's notification.** The link always prints
  `license_id`. That column is NULL for a contract's notification, so the link
  ends in `license-detail/null`.
- **Rows with no license id and no contract id.** Their group key is NULL.
  NULL never equals NULL in the join, so these rows are never returned.
- **The 404 of the summary.** The aggregate query always yields exactly one
  row, so the summary endpoint never answers 404.
- **The counts of an empty table.** Each `SUM` over an empty table is NULL,
  so the active, expired and expiring-soon counts are `null` rather than 0.

## Model

| member | source | states |
|---|---|---|
| `Auth.CheckAuthorization` | middlewares/authMiddleware.js:5-24 | Missing header, wrong or wrong-case scheme, or an empty second word gives 422 and `next` is not called. Otherwise the verifier sees exactly the second word: if it throws the answer is 401, else `decoded` is the verifier's payload and the request proceeds once |
| `Auth.BearerTokenIsNextWord` | middlewares/authMiddleware.js:15 | The token after `"Bearer "` is the text up to the next space: it holds no space, it is a prefix of the rest, and it is followed by a space or by the end |
| `Auth.EmptySecondWordRejected` | middlewares/authMiddleware.js:10-12 | `"Bearer "` and `"Bearer  tok"` (two spaces) are refused with 422 whatever the verifier would say |
| `Auth.SchemeIsCaseSensitive` | middlewares/authMiddleware.js:9 | A lower-case `bearer` scheme is refused with 422 |
| `Auth.TrailingWordsIgnored` | middlewares/authMiddleware.js:15-17 | Appending a second space and more text to the header never changes the outcome |
| `Common.SplitJoin` | middlewares/authMiddleware.js:10 | Joining the pieces of `split(c)` with `c` gives back the original string, so the pieces are a faithful cut of the header |
| `Common.SplitFirstPiece` | middlewares/authMiddleware.js:15 | The first piece of a split is the longest separator-free prefix |
| `Common.LowerNeverStartsWithUpper` | routes/licenseFile.js:13 | A lower-cased string never starts with a string that contains an upper-case letter |
| `Common.ParseNatToDecimal` | controllers/imageUploaderController.js:13 | Reading the decimal text of a number back gives the number |
| `Common.CanonicalIsDecimal` | controllers/imageUploaderController.js:13 | A non-empty digit run without a leading zero is the decimal text of the number it reads as, so there is exactly one such text per number |
| `Expiry.ExpiredTermMatchesClassifier` | controllers/notificationController.js:48-52 | The SQL term `date < CURDATE()` counts a row exactly when its date is non-NULL and before today, that is, when the classifier says expired |
| `Expiry.SoonTermMatchesClassifier` | controllers/notificationController.js:49-51 | The `BETWEEN CURDATE() AND CURDATE()+7` term counts a row exactly when its date is non-NULL and in the closed window, that is, when the classifier says expiring soon |
| `Expiry.ClassifyBoundaries` | controllers/notificationController.js:48-49 | Today is expiring soon (not expired). Today+7 is still expiring soon, today+8 is not due, yesterday is expired |
| `Expiry.BucketsDisjoint` | controllers/notificationController.js:48-49 | No date is counted both expired and expiring soon, and a NULL date is counted in neither |
| `Expiry.Sum` | controllers/notificationController.js:47-52 | `SUM` yields NULL exactly when the table is empty |
| `Expiry.TotalIsCount` | controllers/notificationController.js:47-52 | Summing a 0/1 `CASE WHEN` term gives the number of rows it counts |
| `Expiry.LicenseBuckets` | controllers/notificationController.js:47-49 | The rows each license term counts are exactly the active ones (`is_active = 1`), the ones the classifier calls expired, and the ones it calls expiring soon |
| `Expiry.ContractBuckets` | controllers/notificationController.js:51-52 | The rows each contract term counts are exactly the ones the classifier calls expiring soon and expired |
| `Expiry.SummaryCounts` | controllers/notificationController.js:44-53 | Totals are the table sizes. Each count equals the number of rows that are active (`is_active = 1`), expired or expiring soon by the classifier, and is NULL exactly for an empty table. Contracts have no active count |
| `Expiry.BucketsWithinTotal` | controllers/notificationController.js:46-52 | For licenses and for contracts, expired + expiring soon never exceeds the total |
| `Expiry.UndatedLicenseCountsOnlyInTotal` | controllers/notificationController.js:46-49 | A license with a NULL expiry date raises the total by one. In a non-empty table it leaves the expired and expiring-soon counts unchanged; on an empty table they go from NULL to 0 |
| `Expiry.ActiveIgnoresDates` | controllers/notificationController.js:47 | The active count depends only on the `is_active` flags: changing any dates leaves it unchanged |
| `Expiry.GetSummaryCount` | controllers/notificationController.js:43-68 | A store error gives 500 with the fixed message. Otherwise the answer is 200 with the summary row, and never 404 |
| `Resolver.Key` | controllers/notificationController.js:26-30 | The group key is the license id when present, else the contract id |
| `Resolver.GroupMax` | controllers/notificationController.js:26-28 | A group's `MAX(created_at)` exists exactly when the group has a row. It is attained by a row of the group and bounds every row of the group |
| `Resolver.KeepLatest` | controllers/notificationController.js:25-31 | The join keeps each row, with its multiplicity, exactly when it passes the join condition |
| `Resolver.SortNewestFirst` | controllers/notificationController.js:32 | The ordering is a permutation of its input with `created_at` non-increasing |
| `Resolver.Latest` | controllers/notificationController.js:22-33 | The result is sorted newest first. It holds every row that carries its group's maximum with its multiplicity, and nothing else |
| `Resolver.LatestMembership` | controllers/notificationController.js:25-31 | A row is returned if and only if it is in the table, has a non-NULL key, and no row of its group is newer |
| `Resolver.EveryEntityRepresented` | controllers/notificationController.js:25-31 | Every license or contract with a notification has a returned row of its group that is at least as new as any of its rows |
| `Resolver.TiesAllReturned` | controllers/notificationController.js:30-31 | Distinct rows tied at their group's maximum are all returned |
| `Resolver.UnkeyedRowsDropped` | controllers/notificationController.js:30 | A row with neither a license id nor a contract id is never returned |
| `Resolver.LicenseAndContractShareKey` | controllers/notificationController.js:26 | License k and contract k form one group: an older contract row is hidden by a newer license row with the same number |
| `Resolver.LatestEmptyIff` | controllers/notificationController.js:22-33 | The result is empty exactly when no row has a license or a contract id |
| `Resolver.LatestIdempotent` | controllers/notificationController.js:22-33 | Running the query on its own output returns that output unchanged |
| `Webhook.GetAllNotifications` | controllers/notificationController.js:21-41 | A store error gives 500 with the driver's message. Otherwise the answer is 200 with exactly the resolver's rows |
| `Webhook.FormatBlock` | controllers/notificationController.js:119-120 | A block opens with the message ("No Message" when it is NULL or empty), the expiry date and the creation time. It closes with "Read" or "Not Read" by the `is_read` flag, the read time or "N/A", and the detail link built from `license_id` |
| `Webhook.DigestAppend` | controllers/notificationController.js:119-121 | One more row appends the separator line and that row's block: one block per row, in order |
| `Webhook.DigestStartsWithFirstBlock` | controllers/notificationController.js:119-121 | A one-row digest is that row's block. A longer one starts with the newest row's block and the separator |
| `Webhook.ContractRowsLinkToNull` | controllers/notificationController.js:120 | A notification without a license id links to `license-detail/null`, also when it concerns a contract |
| `Webhook.MessageFallback` | controllers/notificationController.js:120 | A NULL or empty message is shown as "No Message" |
| `Webhook.ReadFallbacks` | controllers/notificationController.js:120 | An unread notification never read shows "Not Read" and "N/A" as its read time, right before the link |
| `Webhook.ReadShowsReadTime` | controllers/notificationController.js:120 | A read notification shows "Read" and its formatted read time, right before the link |
| `Webhook.NullExpiryShowsEpoch` | controllers/notificationController.js:120 | A notification with a NULL expiry date shows the epoch as its expiry |
| `Webhook.RetryFrom` | controllers/notificationController.js:127-152 | State machine: between 1 and 3 POSTs. Every POST but the last failed. It is delivered exactly when the last POST succeeded, and it gives up only after three failures. Pauses only between POSTs |
| `Webhook.PushWithRetries` | controllers/notificationController.js:127-152 | The `while` loop, with its counters, meets the same direct description of the retry policy |
| `Webhook.FollowsUnique` | controllers/notificationController.js:127-152 | The POST answers determine the loop's outcome, POST count and pauses completely |
| `Webhook.LoopMatchesMachine` | controllers/notificationController.js:127-152 | Any run that meets the retry description equals the state machine's run, so loop and machine agree on every input |
| `Webhook.SuccessOnThirdAttempt` | controllers/notificationController.js:131-135 | Two failures then a success: delivered after 3 POSTs with a 2000 ms pause after each failure |
| `Webhook.GiveUpAfterThirdFailure` | controllers/notificationController.js:136-148 | Three failures: not delivered, exactly 3 POSTs, no fourth even when it would succeed |
| `Webhook.GetNotificationsForWebhook` | controllers/notificationController.js:70-156 | Store error gives 500 and no POST. No rows gives 200 and no POST. Otherwise the digest of the resolver's rows is sent: 200 if the retry loop delivers it, 500 if not |
| `Webhook.PushPostsBounded` | controllers/notificationController.js:89-154 | A push makes no POST exactly when there is nothing to push. Otherwise it makes 1 to 3 POSTs with pauses only between them |
| `Webhook.PushSendsListedRows` | controllers/notificationController.js:71-82 | The push formats exactly the rows the list endpoint returns, in the same order: both run the same query |
| `Webhook.UnkeyedTableSendsNothing` | controllers/notificationController.js:89-92 | A table whose rows carry neither id pushes nothing and answers 200 |
| `Users.Defined` | controllers/userController.js:223 | The filter keeps exactly the entries whose value is not `undefined`, so `null` stays |
| `Users.DefinedKeepsColumnOrder` | controllers/userController.js:223 | Filtering keeps the remaining columns in their original order |
| `Users.UpdateDataEntries` | controllers/userController.js:210-219 | The update object maps each of the eight columns to its renamed body field, or to the token's user id for `updated_by` |
| `Users.Assignments` | controllers/userController.js:210-224 | The SET clause has exactly the columns whose value is not `undefined`, each with its value, in the fixed order user_name … updated_by. With a defined user id it ends with `updated_by` |
| `Users.UpdateDataMembership` | controllers/userController.js:210-219 | An entry is in the update object exactly when it pairs one of the eight columns with that column's value |
| `Users.PasswordNeverWritten` | controllers/userController.js:197-219 | Supplying a password never changes the statement |
| `Users.PasswordColumnNeverAssigned` | controllers/userController.js:210-219 | No assignment ever targets a `user_password` column |
| `Users.RenameOneToOne` | controllers/userController.js:211-217 | The renaming is one-to-one: distinct body fields go to distinct columns, in the column order |
| `Users.SetClauseNeverEmpty` | controllers/userController.js:186-224 | Past the user guard, `updated_by` with the token's user id is always assigned |
| `Users.UpdateById` | controllers/userController.js:185-250 | No user id: 422. No id: 400. A failed hash of a supplied password: 500 whose message is the `Error` object (serialised as `{}`), and this is the only answer whose message is not a text. None of these builds a statement. Otherwise the built statement is sent. More than 0 affected rows gives 200 with "User Updated Successfully." and exactly one activity log for that user and id. 0 rows gives 404 "User not found" and a store error 500 with the error's message, both with no log |
| `Uploads.DestinationIsConfigured` | middlewares/uploader.js:8-10 | Every file goes to the configured destination, unchanged |
| `Uploads.StoredName` | middlewares/uploader.js:11-15 | The stored name ends with "-" and the lower-cased original name |
| `Uploads.StoredNameRoundTrip` | middlewares/uploader.js:12-14 | Cutting a stored name at its first two dashes gives back the time, the random number and the lower-cased original name, even when that name has dashes |
| `Uploads.FileFilter` | middlewares/uploader.js:24-35 | A file is accepted exactly when its mimetype is on the whitelist. Otherwise it is refused with the fixed error and never accepted |
| `Uploads.FilterWhitelist` | middlewares/uploader.js:25-31 | The whitelist has nine distinct types, and the test is exact and case-sensitive |
| `Uploads.CheckFileUrl` | routes/licenseFile.js:12-17 | No file: nothing changes. Otherwise only `filename` can change. It becomes the lower-cased original name exactly when that name starts with the configured URL |
| `Uploads.UpperCaseUrlNeverMatches` | routes/licenseFile.js:13 | If the configured URL has an upper-case letter, the file always passes through untouched |
| `Uploads.CheckFileUrlIdempotent` | routes/licenseFile.js:13-14 | Applying the rewrite twice is the same as applying it once |
| `Uploads.SaveImage` | controllers/imageUploaderController.js:4-23 | With a file: no error, and metadata whose path is the configured URL followed by the stored name. Name and type are copied. The size text is a non-empty digit run without a leading zero that reads back as the size, which makes it the decimal text of the size. Without a file: error, "No Image Selected", no data |
| `Uploads.UploadSingleImage` | controllers/imageUploaderController.js:26-36 | The user is checked before the file: 422, then 400 for no file. Otherwise 200 with the configured URL followed by the stored name |
| `Uploads.UploadMultipleImages` | controllers/imageUploaderController.js:39-50 | Success (200) exactly when `files` is non-empty. The path reported is present exactly when the single `file` is, so it is absent on many successes |
| `Uploads.MultipleUploadReportsNoPath` | controllers/imageUploaderController.js:43-45 | Several files with no single `file` give a success that reports no path |
| `MaintenanceContracts.DefaultNamesPerRow` | controllers/maintenanceContractsController.js:86-89 | Each output row equals its input row except for `updated_by_name`. That becomes "N/A" exactly when it was falsy (NULL, undefined, empty) and is kept otherwise |
| `MaintenanceContracts.DefaultNamesIdempotent` | controllers/maintenanceContractsController.js:86-89 | Post-processing the post-processed rows changes nothing |
| `MaintenanceContracts.GetAll` | controllers/maintenanceContractsController.js:53-92 | No user: 422 and no rows. A store error gives 500. Otherwise 200 with as many rows as the query, in order. Each row changes only in `updated_by_name`, which is kept when truthy and becomes "N/A" when falsy |
| `ErrorHandler.HandleError` | server.js:81-87 | For an error object whose status code is missing, falsy or in 100–999, the answer's status is the defaulted `statusCode` and the body holds only the defaulted message. Both are always truthy |
| `ErrorHandler.ZeroStatusBecomes500` | server.js:82 | A status code of 0 or a missing one is answered with 500 |
| `ErrorHandler.FillDefaultsIdempotent` | server.js:82-83 | Applying the two defaulting assignments twice gives the same error as applying them once |

## Left out

- `ErrorHandler.HandleError`: the defaulted status is handed to the HTTP layer unchecked. The model answers with it whatever it is, but Node refuses codes outside 100–999 and Express then answers 500 with its own body. The model also takes `err` to be an object; a thrown non-object makes the handler's own assignment throw. Both belong to the framework, not to this handler.
- The `generate_notifications()` stored procedure (controllers/notificationController.js:10) is not part of this model. Its body lives in the database, so generating and de-duplicating notifications, and the generator's idempotence, cannot be stated from the code.
- `getNotificationById` and `markAsRead` run a single parameterized statement each, so they have no logic beyond the store.
- `axios.post` and `setTimeout` are network I/O and real time. The POST answers are the `outcomes` input, and each two-second pause is a `Wait(2000)` step in the trace.
- The console logging and the error response details logged on each failed POST are left out. They do not change any answer.
- `Date.toLocaleString` depends on the locale. It is the opaque `show` parameter. A NULL expiry date is shown as `show(0)`, because `new Date(null)` is the epoch.
- `Resolver.Notification`: `created_at` is taken to be non-NULL. In SQL a row whose `created_at` is NULL never equals its group's `MAX(created_at)` (the comparison is unknown), so such a row is never returned; the model has no such rows.
- Within one timestamp, `ORDER BY created_at DESC` leaves the order to the database. The model uses a stable sort. Only `Latest`'s contract (sorted, right rows) is claimed for every order, and the digest's block order within ties follows the model's choice.
- `Common.ToLower`: lower-cases only the ASCII letters A–Z. `toLowerCase` also folds other Unicode letters.
- `Common.JsValue`: numbers are integers only, and there is no object or array case. JavaScript doubles and NaN cannot be expressed, so a non-integer `name` such as 1.5 cannot appear in an activity description. The SET-clause properties do not depend on this.
- `Expiry.Summary`: every count is a number. The mysql driver returns `SUM` columns as DECIMAL text and `COUNT(*)` totals as numbers, and the model does not keep that difference in the JSON reply.
- `jwt.verify` with the configured secret is an oracle (`verify` returns the payload or nothing). Token signing and expiry are not modelled.
- The mysql driver's `escape` is an oracle parameter. Its quoting rules are the library's.
- bcrypt hashing is an oracle: only whether it fails matters, because the hash is never written. A failure is answered with the `Error` object itself as `message`, which is serialised as `{}`; the model records this as `ErrorObject` and does not model the object's contents.
- The statements that are sent are treated as opaque. The store's answer (error, rows or affected-row count) is an input.
- Multer itself is left out: multipart parsing, the 50 MB size limit, and `upload.single`/`upload.array`. Only its three callbacks are modelled.
- The upload answers use `error: false` (single) and `success: true` (multiple) as their flag. Both are the `ok` field of `UploadReply`.
- The MySQL pool and reconnect logic (connection.js) is I/O, and so are the logger and the CORS middleware (middlewares/).
- Cluster forking in server.js is concurrency.
- The express-validator rules (middlewares/validation.js) are not modelled, because their check semantics are the library's.
- The CRUD bodies of the other controllers, the other `UserController` methods, authController.js and `LicensesNewController.updateById` pass request fields to SQL and have no logic of their own. The route wiring other than `checkFileUrl` is left out too.

=== FILE: auth.dfy ===
/** The bearer-token check every protected route runs first
    (`AuthMiddleware.checkAuthorization`). Token verification (`jwt.verify`
    with the configured secret) is an oracle: it either yields the decoded
    payload or throws, which is `None` here. */
module Auth {
  import opened Common

  /** The decoded token payload the handlers read as `req.decoded`. */
  datatype Decoded = Decoded(userId: JsValue)

  /** What the middleware does with the request: it either answers it itself
      (and `next` is never called), or attaches `decoded` and calls `next`
      exactly once. */
  datatype AuthResult =
    | Rejected(status: int, message: string)
    | Proceed(decoded: Decoded)

  const Scheme := "Bearer "
  const MissingTokenMessage := "Please provide the token"
  const InvalidTokenMessage := "Invalid token"
  const MissingUserMessage := "Invalid user information in token"

  /** The user guard the controllers share: true when the request carries a
      decoded token whose user id is truthy. */
  predicate HasUser(decoded: Option<Decoded>) {
    decoded.Some? && Truthy(decoded.value.userId)
  }

  /** The second space-separated word of the header, or None when the header
      has no space (JavaScript then yields `undefined`). */
  function SecondWord(header: string): Option<string> {
    var pieces := Split(header, ' ');
    if |pieces| > 1 then Some(pieces[1]) else None
  }

  /** The header is present, starts with the exact scheme and has a non-empty
      second word. */
  predicate WellFormed(header: Option<string>) {
    header.Some? && header.value != ""
    && StartsWith(header.value, Scheme)
    && Present(SecondWord(header.value))
  }

  function CheckAuthorization(header: Option<string>, verify: string -> Option<Decoded>): (r: AuthResult)
    ensures header.None? ==> r == Rejected(422, MissingTokenMessage)
    ensures header.Some? && !StartsWith(header.value, Scheme) ==> r == Rejected(422, MissingTokenMessage)
    ensures r.Rejected? ==> r.status == 422 || r.status == 401
    ensures r.Rejected? && r.status == 422 <==> !WellFormed(header)
    ensures WellFormed(header) ==>
              var token := SecondWord(header.value).value;
              (r.Proceed? <==> verify(token).Some?)
              && (r.Proceed? ==> r.decoded == verify(token).value)
              && (r.Rejected? ==> r == Rejected(401, InvalidTokenMessage))
  {
    if !WellFormed(header) then
      Rejected(422, MissingTokenMessage)
    else
      var token := SecondWord(header.value).value;
      match verify(token)
      case None => Rejected(401, InvalidTokenMessage)
      case Some(decoded) => Proceed(decoded)
  }

  /** After the scheme, the token is the text up to the next space: it holds no
      space, it is a prefix of the rest of the header, and whatever follows it
      (if anything) starts with a space and is ignored. */
  lemma BearerTokenIsNextWord(header: string)
    requires StartsWith(header, Scheme)
    ensures SecondWord(header).Some?
    ensures var token := SecondWord(header).value;
            var rest := header[|Scheme|..];
            ' ' !in token
            && StartsWith(rest, token)
            && (|token| == |rest| || rest[|token|] == ' ')
  {
    var rest := header[|Scheme|..];
    assert header == "Bearer" + [' '] + rest;
    SplitAfterPrefix("Bearer", ' ', rest);
    SplitFirstPiece(rest, ' ');
  }

  /** `"Bearer "` alone and `"Bearer  tok"` (two spaces) leave an empty second
      word, so both are refused with 422 whatever the verifier says. */
  lemma EmptySecondWordRejected(verify: string -> Option<Decoded>)
    ensures CheckAuthorization(Some("Bearer "), verify) == Rejected(422, MissingTokenMessage)
    ensures CheckAuthorization(Some("Bearer  tok"), verify) == Rejected(422, MissingTokenMessage)
  {
    BearerTokenIsNextWord("Bearer ");
    BearerTokenIsNextWord("Bearer  tok");
    assert "Bearer  tok"[|Scheme|..] == " tok";
  }

  /** The scheme is case-sensitive: a lower-case `bearer` is refused. */
  lemma SchemeIsCaseSensitive(token: string, verify: string -> Option<Decoded>)
    ensures CheckAuthorization(Some("bearer " + token), verify) == Rejected(422, MissingTokenMessage)
  {
    assert ("bearer " + token)[0] == 'b';
  }

  /** Text after a second space never reaches the verifier. */
  lemma TrailingWordsIgnored(token: string, tail: string, verify: string -> Option<Decoded>)
    requires ' ' !in token && token != ""
    ensures CheckAuthorization(Some(Scheme + token + " " + tail), verify)
         == CheckAuthorization(Some(Scheme + token), verify)
  {
    var h1 := Scheme + token + " " + tail;
    var h2 := Scheme + token;
    assert h1 == "Bearer" + [' '] + (token + [' '] + tail);
    assert h2 == "Bearer" + [' '] + token;
    SplitAfterPrefix("Bearer", ' ', token + [' '] + tail);
    SplitAfterPrefix("Bearer", ' ', token);
    SplitAfterPrefix(token, ' ', tail);
    assert token + [' '] + tail == token + " " + tail;
    assert h2[..|Scheme|] == Scheme;
    assert h1[..|Scheme|] == Scheme;
    var w := Split(token, ' ');
    SplitFirstPiece(token, ' ');
    assert w[0] == token;
  }
}

=== FILE: common.dfy ===
/** Shared vocabulary of the back end: optional values, JavaScript values and
    their truthiness, ASCII lower-casing, decimal rendering, and the
    `split`/`join` string operations the request handlers use. */
module Common {

  /** A value that may be SQL NULL / JavaScript null. */
  datatype Option<+T> = None | Some(value: T) {
    function GetOr(default: T): T {
      match this
      case Some(v) => v
      case None => default
    }
  }

  /** The outcome of one query against the store: the driver either reports an
      error (carrying `error.message`) or hands back its result. */
  datatype DbResult<+T> = DbError(message: string) | DbOk(result: T)

  /** A JavaScript value as it arrives in a request body, a token payload or a
      query row. Only the shapes the handlers distinguish are kept. */
  datatype JsValue = Undefined | Null | Str(s: string) | Num(n: int) | Bool(b: bool)

  /** JavaScript truthiness: `undefined`, `null`, `""`, `0` and `false` are falsy. */
  predicate Truthy(v: JsValue) {
    match v
    case Str(s) => s != ""
    case Num(n) => n != 0
    case Bool(b) => b
    case _ => false
  }

  /** JavaScript `a || b`: the left operand when it is truthy, else the right one. */
  function JsOr(a: JsValue, b: JsValue): (r: JsValue)
    ensures Truthy(a) ==> r == a
    ensures !Truthy(a) ==> r == b
  {
    if Truthy(a) then a else b
  }

  /** `String(v)`, as a template literal prints a value. */
  function JsText(v: JsValue): string {
    match v
    case Undefined => "undefined"
    case Null => "null"
    case Str(s) => s
    case Num(n) => IntToDecimal(n)
    case Bool(b) => if b then "true" else "false"
  }

  /** Truthiness of an optional text column: NULL and the empty string are falsy. */
  predicate Present(o: Option<string>) {
    o.Some? && o.value != ""
  }

  /** JavaScript `text || fallback` on an optional text column. */
  function TextOr(o: Option<string>, fallback: string): (r: string)
    ensures Present(o) ==> r == o.value
    ensures !Present(o) ==> r == fallback
  {
    if Present(o) then o.value else fallback
  }

  // ---------------------------------------------------------------------------
  // Lower-casing (ASCII letters only)

  predicate IsUpper(c: char) {
    'A' <= c <= 'Z'
  }

  function LowerChar(c: char): (r: char)
    ensures !IsUpper(r)
    ensures !IsUpper(c) ==> r == c
  {
    if IsUpper(c) then (c as int - 'A' as int + 'a' as int) as char else c
  }

  /** `String.prototype.toLowerCase`, restricted to the ASCII alphabet. */
  function ToLower(s: string): (r: string)
    ensures |r| == |s|
    ensures forall i :: 0 <= i < |s| ==> r[i] == LowerChar(s[i])
  {
    if |s| == 0 then [] else [LowerChar(s[0])] + ToLower(s[1..])
  }

  predicate HasUpper(s: string) {
    exists i :: 0 <= i < |s| && IsUpper(s[i])
  }

  /** `s.startsWith(p)`. */
  predicate StartsWith(s: string, p: string) {
    |p| <= |s| && s[..|p|] == p
  }

  /** `s.endsWith(p)`. */
  predicate EndsWith(s: string, p: string) {
    |p| <= |s| && s[|s| - |p|..] == p
  }

  /** A lower-cased string has no upper-case letter, so it cannot start with a
      string that has one. */
  lemma LowerNeverStartsWithUpper(s: string, p: string)
    requires HasUpper(p)
    ensures !StartsWith(ToLower(s), p)
  {
    var i :| 0 <= i < |p| && IsUpper(p[i]);
    assert i >= |s| || !IsUpper(ToLower(s)[i]);
  }

  /** A concatenation starts with its left part and ends with its right part. */
  lemma ConcatAffixes(a: string, b: string)
    ensures StartsWith(a + b, a) && EndsWith(a + b, b)
  {
    assert (a + b)[..|a|] == a;
    assert (a + b)[|a + b| - |b|..] == b;
  }

  /** A prefix of a prefix is a prefix. */
  lemma PrefixOfPrefix(s: string, p: string, q: string)
    requires StartsWith(s, p + q)
    ensures StartsWith(s, p)
  {
    assert s[..|p|] == (p + q)[..|p|];
  }

  /** A suffix of a suffix is a suffix. */
  lemma SuffixOfSuffix(s: string, p: string, q: string)
    requires EndsWith(s, p + q)
    ensures EndsWith(s, q)
  {
    assert s[|s| - |q|..] == (p + q)[|p|..];
  }

  // ---------------------------------------------------------------------------
  // Decimal rendering (`${n}` of a JavaScript number) and its inverse

  predicate IsDigit(c: char) {
    '0' <= c <= '9'
  }

  predicate AllDigits(s: string) {
    forall i :: 0 <= i < |s| ==> IsDigit(s[i])
  }

  function DigitChar(d: nat): (c: char)
    requires d < 10
    ensures IsDigit(c)
  {
    (d + '0' as int) as char
  }

  function DigitValue(c: char): nat
    requires IsDigit(c)
  {
    c as int - '0' as int
  }

  /** The decimal text of a natural number, without leading zeros. */
  function NatToDecimal(n: nat): (r: string)
    ensures |r| >= 1 && AllDigits(r)
    ensures |r| > 1 ==> r[0] != '0'
  {
    if n < 10 then [DigitChar(n)] else NatToDecimal(n / 10) + [DigitChar(n % 10)]
  }

  /** The decimal text of an integer, with a leading `-` when negative. */
  function IntToDecimal(i: int): (r: string)
    ensures i >= 0 ==> r == NatToDecimal(i)
    ensures i < 0 ==> r == "-" + NatToDecimal(-i)
  {
    if i < 0 then "-" + NatToDecimal(-i) else NatToDecimal(i)
  }

  /** Reads a run of decimal digits back as a number. */
  function ParseDecimal(s: string): nat
    requires AllDigits(s)
  {
    if |s| == 0 then 0 else ParseDecimal(s[..|s| - 1]) * 10 + DigitValue(s[|s| - 1])
  }

  lemma {:induction false} ParseNatToDecimal(n: nat)
    ensures ParseDecimal(NatToDecimal(n)) == n
  {
    if n >= 10 {
      var s := NatToDecimal(n);
      assert s[..|s| - 1] == NatToDecimal(n / 10);
      ParseNatToDecimal(n / 10);
    }
  }

  /** A digit run without a leading zero. */
  predicate Canonical(s: string) {
    AllDigits(s) && |s| >= 1 && (|s| == 1 || s[0] != '0')
  }

  lemma {:induction false} ParseLeadingNonZero(s: string)
    requires AllDigits(s) && |s| >= 1 && s[0] != '0'
    ensures ParseDecimal(s) >= 1
  {
    if |s| > 1 {
      ParseLeadingNonZero(s[..|s| - 1]);
    }
  }

  /** A canonical digit run is the decimal text of the number it reads as, so
      `NatToDecimal` is the only canonical text of a number. */
  lemma {:induction false} CanonicalIsDecimal(s: string)
    requires Canonical(s)
    ensures s == NatToDecimal(ParseDecimal(s))
  {
    if |s| > 1 {
      var p := s[..|s| - 1];
      CanonicalIsDecimal(p);
      ParseLeadingNonZero(p);
      var n := ParseDecimal(s);
      assert n / 10 == ParseDecimal(p) && n % 10 == DigitValue(s[|s| - 1]);
      assert s == p + [s[|s| - 1]];
    }
  }

  // ---------------------------------------------------------------------------
  // `String.prototype.split` with a one-character separator, and `Array.prototype.join`

  /** `s.split(c)`: the pieces between occurrences of `c`; never empty. */
  function Split(s: string, c: char): (r: seq<string>)
    ensures |r| >= 1
    ensures forall k :: 0 <= k < |r| ==> c !in r[k]
  {
    if |s| == 0 then [""]
    else
      var rest := Split(s[1..], c);
      if s[0] == c then [""] + rest else [[s[0]] + rest[0]] + rest[1..]
  }

  /** Applying `f` to every element, keeping the order. */
  function Map<T, U>(xs: seq<T>, f: T -> U): (r: seq<U>)
    ensures |r| == |xs|
    ensures forall i :: 0 <= i < |xs| ==> r[i] == f(xs[i])
  {
    if |xs| == 0 then [] else [f(xs[0])] + Map(xs[1..], f)
  }

  lemma {:induction false} MapAppend<T, U>(xs: seq<T>, x: T, f: T -> U)
    ensures Map(xs + [x], f) == Map(xs, f) + [f(x)]
  {
    if |xs| > 0 {
      assert (xs + [x])[1..] == xs[1..] + [x];
      MapAppend(xs[1..], x, f);
    }
  }

  /** `parts.join(sep)`. */
  function Join(parts: seq<string>, sep: string): string
  {
    if |parts| == 0 then ""
    else if |parts| == 1 then parts[0]
    else parts[0] + sep + Join(parts[1..], sep)
  }

  lemma JoinConsHead(a: string, x: string, t: seq<string>, sep: string)
    ensures Join([a + x] + t, sep) == a + Join([x] + t, sep)
  {
    if |t| > 0 {
      assert ([a + x] + t)[1..] == t;
      assert ([x] + t)[1..] == t;
    }
  }

  /** Appending a part to a non-empty list adds the separator and the part. */
  lemma {:induction false} JoinAppend(parts: seq<string>, x: string, sep: string)
    requires |parts| > 0
    ensures Join(parts + [x], sep) == Join(parts, sep) + sep + x
  {
    if |parts| > 1 {
      assert (parts + [x])[1..] == parts[1..] + [x];
      JoinAppend(parts[1..], x, sep);
    }
  }

  /** Joining the pieces of a split with the separator gives back the string. */
  lemma {:induction false} SplitJoin(s: string, c: char)
    ensures Join(Split(s, c), [c]) == s
  {
    if |s| > 0 {
      var rest := Split(s[1..], c);
      SplitJoin(s[1..], c);
      if s[0] == c {
        assert ([""] + rest)[1..] == rest;
        assert s == [c] + s[1..];
      } else {
        assert rest == [rest[0]] + rest[1..];
        JoinConsHead([s[0]], rest[0], rest[1..], [c]);
        assert s == [s[0]] + s[1..];
      }
    }
  }

  /** A prefix free of the separator becomes the first piece of the split. */
  lemma {:induction false} SplitAfterPrefix(p: string, c: char, t: string)
    requires c !in p
    ensures Split(p + [c] + t, c) == [p] + Split(t, c)
  {
    if |p| == 0 {
      assert p + [c] + t == [c] + t;
      assert ([c] + t)[1..] == t;
    } else {
      var s := p + [c] + t;
      assert s[1..] == p[1..] + [c] + t;
      SplitAfterPrefix(p[1..], c, t);
      assert [s[0]] + p[1..] == p;
    }
  }

  /** The first piece of a split is the longest prefix free of the separator. */
  lemma {:induction false} SplitFirstPiece(s: string, c: char)
    ensures StartsWith(s, Split(s, c)[0])
    ensures |Split(s, c)[0]| == |s| || s[|Split(s, c)[0]|] == c
  {
    if |s| > 0 && s[0] != c {
      SplitFirstPiece(s[1..], c);
    }
  }

  /** Cuts `s` at the first occurrence of `c`: the text before it and the text
      after it, or None when `c` does not occur. */
  function SplitFirst(s: string, c: char): (r: Option<(string, string)>)
    ensures r.None? <==> c !in s
    ensures r.Some? ==> c !in r.value.0 && s == r.value.0 + [c] + r.value.1
  {
    if |s| == 0 then None
    else if s[0] == c then Some(([], s[1..]))
    else match SplitFirst(s[1..], c)
      case None => None
      case Some(pr) => Some(([s[0]] + pr.0, pr.1))
  }

  lemma {:induction false} SplitFirstAfterPrefix(p: string, c: char, t: string)
    requires c !in p
    ensures SplitFirst(p + [c] + t, c) == Some((p, t))
  {
    if |p| == 0 {
      assert p + [c] + t == [c] + t;
    } else {
      var s := p + [c] + t;
      assert s[1..] == p[1..] + [c] + t;
      SplitFirstAfterPrefix(p[1..], c, t);
      assert [s[0]] + p[1..] == p;
    }
  }
}

=== FILE: contracts.dfy ===
/** `MaintenanceContractsController.getAll`: the token guard and the
    post-processing of the joined rows, which defaults a missing updater name
    to "N/A". The query itself runs in the store; its rows are an input. */
module MaintenanceContracts {
  import opened Common
  import opened Auth

  /** One row of the joined listing query. */
  datatype ContractRow = ContractRow(
    contractId: JsValue,
    contractType: JsValue,
    startDate: JsValue,
    endDate: JsValue,
    licenseId: JsValue,
    licenseName: JsValue,
    amount: JsValue,
    notes: JsValue,
    createdAt: JsValue,
    createdByName: JsValue,
    updatedByName: JsValue,
    updatedAt: JsValue)

  const NoUpdaterName := "N/A"

  /** A copy of the row whose updater name falls back to "N/A" when it is
      falsy. */
  function WithUpdaterName(row: ContractRow): ContractRow {
    row.(updatedByName := JsOr(row.updatedByName, Str(NoUpdaterName)))
  }

  function DefaultNames(rows: seq<ContractRow>): (r: seq<ContractRow>)
    ensures |r| == |rows|
    ensures forall i :: 0 <= i < |rows| ==> r[i] == WithUpdaterName(rows[i])
  {
    seq(|rows|, i requires 0 <= i < |rows| => WithUpdaterName(rows[i]))
  }

  /** Row by row, the map replaces a falsy updater name (NULL, undefined or
      empty) by "N/A", keeps a truthy one, and copies every other column. */
  lemma DefaultNamesPerRow(rows: seq<ContractRow>, i: int)
    requires 0 <= i < |rows|
    ensures var out := DefaultNames(rows)[i];
            && out == rows[i].(updatedByName := out.updatedByName)
            && (Truthy(rows[i].updatedByName) ==> out.updatedByName == rows[i].updatedByName)
            && (!Truthy(rows[i].updatedByName) ==> out.updatedByName == Str(NoUpdaterName))
            && Truthy(out.updatedByName)
  {
  }

  /** The map changes nothing the second time: every name it leaves is truthy. */
  lemma DefaultNamesIdempotent(rows: seq<ContractRow>)
    ensures DefaultNames(DefaultNames(rows)) == DefaultNames(rows)
  {
  }

  datatype ListReply = ListReply(status: int, error: bool, data: seq<ContractRow>, message: string)

  const ListedMessage := "All maintenance contracts retrieved successfully"

  /** `getAll`: 422 without a user (no query runs), 500 on a store error,
      otherwise the post-processed rows in query order. */
  function GetAll(decoded: Option<Decoded>, db: DbResult<seq<ContractRow>>): (r: ListReply)
    ensures !HasUser(decoded) ==> r == ListReply(422, true, [], MissingUserMessage)
    ensures HasUser(decoded) && db.DbError? ==> r == ListReply(500, true, [], db.message)
    ensures HasUser(decoded) && db.DbOk? ==>
              && r.status == 200 && !r.error && r.message == ListedMessage
              && |r.data| == |db.result|
              && forall i :: 0 <= i < |r.data| ==>
                   r.data[i] == db.result[i].(updatedByName := r.data[i].updatedByName)
                   && Truthy(r.data[i].updatedByName)
                   && (Truthy(db.result[i].updatedByName) ==> r.data[i].updatedByName == db.result[i].updatedByName)
                   && (!Truthy(db.result[i].updatedByName) ==> r.data[i].updatedByName == Str(NoUpdaterName))
  {
    if !HasUser(decoded) then ListReply(422, true, [], MissingUserMessage)
    else match db
      case DbError(msg) => ListReply(500, true, [], msg)
      case DbOk(rows) => ListReply(200, false, DefaultNames(rows), ListedMessage)
  }
}

=== FILE: errors.dfy ===
/** `Server.errorHandler`, the last middleware of the Express app: it fills in
    a status and a message on the error object and answers with the message
    alone. */
module ErrorHandler {
  import opened Common

  /** The two properties of the thrown error the handler reads and writes. */
  datatype HttpError = HttpError(statusCode: JsValue, message: JsValue)

  /** The JSON body: `{ message }` and nothing else. */
  datatype ErrorBody = ErrorBody(message: JsValue)

  datatype ErrorReply = ErrorReply(status: JsValue, body: ErrorBody)

  const DefaultStatus := 500
  const DefaultMessage := "Internal Server Error"

  /** The handler's defaulting: a falsy status code becomes 500 and a falsy
      message becomes "Internal Server Error"; truthy ones are kept. */
  function FillDefaults(err: HttpError): (e: HttpError)
    ensures Truthy(err.statusCode) ==> e.statusCode == err.statusCode
    ensures !Truthy(err.statusCode) ==> e.statusCode == Num(DefaultStatus)
    ensures Truthy(err.message) ==> e.message == err.message
    ensures !Truthy(err.message) ==> e.message == Str(DefaultMessage)
  {
    HttpError(JsOr(err.statusCode, Num(DefaultStatus)), JsOr(err.message, Str(DefaultMessage)))
  }

  /** The handler: the error after defaulting, and the response it sends. */
  function HandleError(err: HttpError): (r: (HttpError, ErrorReply))
    ensures r.1.status == r.0.statusCode && r.1.body == ErrorBody(r.0.message)
    ensures Truthy(r.1.status) && Truthy(r.1.body.message)
    ensures r.0 == FillDefaults(err)
  {
    var e := FillDefaults(err);
    (e, ErrorReply(e.statusCode, ErrorBody(e.message)))
  }

  /** A status code of 0 is falsy, so it is answered as 500 too. */
  lemma ZeroStatusBecomes500(message: JsValue)
    ensures HandleError(HttpError(Num(0), message)).1.status == Num(500)
    ensures HandleError(HttpError(Undefined, message)).1.status == Num(500)
  {
  }

  /** Defaulting twice is the same as defaulting once. */
  lemma FillDefaultsIdempotent(err: HttpError)
    ensures FillDefaults(FillDefaults(err)) == FillDefaults(err)
  {
  }
}

=== FILE: expiry.dfy ===
/** Expiry classification and the dashboard summary (`getSummaryCount`).
    Calendar dates are day numbers and today's date is an explicit
    parameter. The summary query is evaluated the way the SQL engine does it:
    comparisons with NULL are unknown, `CASE WHEN` treats unknown as false,
    and `SUM` over an empty table is NULL. */
module Expiry {
  import opened Common

  type Day = int

  /** Length of the expiring-soon window: `INTERVAL 7 DAY`. */
  const SoonWindowDays := 7

  datatype Classification = Active | ExpiringSoon | Expired

  /** Where a date stands relative to today, by its distance in days. */
  function Classify(today: Day, date: Day): Classification {
    var daysLeft := date - today;
    if daysLeft < 0 then Expired
    else if daysLeft <= SoonWindowDays then ExpiringSoon
    else Active
  }

  datatype License = License(expiryDate: Option<Day>, isActive: Option<int>)
  datatype Contract = Contract(endDate: Option<Day>)

  // ---------------------------------------------------------------------------
  // The SQL conditions of the summary query

  /** SQL truth values: a comparison with NULL is unknown. */
  datatype SqlBool = True | False | Unknown

  function SqlOf(b: bool): SqlBool {
    if b then True else False
  }

  /** `a < b`. */
  function SqlLess(a: Option<Day>, b: Day): SqlBool {
    if a.None? then Unknown else SqlOf(a.value < b)
  }

  /** `a BETWEEN lo AND hi`, inclusive at both ends. */
  function SqlBetween(a: Option<Day>, lo: Day, hi: Day): SqlBool {
    if a.None? then Unknown else SqlOf(lo <= a.value && a.value <= hi)
  }

  /** `a = b` on an integer column. */
  function SqlEquals(a: Option<int>, b: int): SqlBool {
    if a.None? then Unknown else SqlOf(a.value == b)
  }

  /** `CASE WHEN cond THEN 1 ELSE 0 END`. */
  function CaseWhen(cond: SqlBool): nat {
    if cond == True then 1 else 0
  }

  /** The last day of the expiring-soon window: seven days after today. */
  function SoonLimit(today: Day): Day {
    today + SoonWindowDays
  }

  /** The per-row terms of the summary query. */
  function ExpiredTerm(today: Day, date: Option<Day>): nat {
    CaseWhen(SqlLess(date, today))
  }

  function SoonTerm(today: Day, date: Option<Day>): nat {
    CaseWhen(SqlBetween(date, today, SoonLimit(today)))
  }

  function ActiveTerm(l: License): nat {
    CaseWhen(SqlEquals(l.isActive, 1))
  }

  /** The before-today term counts a row exactly when its date is classified
      as expired. */
  lemma ExpiredTermMatchesClassifier(today: Day, date: Option<Day>)
    ensures ExpiredTerm(today, date) == 1 <==> date.Some? && Classify(today, date.value) == Expired
    ensures ExpiredTerm(today, date) == 1 <==> date.Some? && date.value < today
  {
  }

  /** The `BETWEEN` term counts a row exactly when its date is classified as
      expiring soon: today itself and today + 7 are both inside the window. */
  lemma SoonTermMatchesClassifier(today: Day, date: Option<Day>)
    ensures SoonTerm(today, date) == 1 <==> date.Some? && Classify(today, date.value) == ExpiringSoon
    ensures SoonTerm(today, date) == 1 <==> date.Some? && today <= date.value <= today + 7
  {
  }

  /** The window edges: today is expiring soon (not expired), today + 7 is
      still expiring soon, today + 8 is active, yesterday is expired. */
  lemma ClassifyBoundaries(today: Day)
    ensures Classify(today, today) == ExpiringSoon
    ensures Classify(today, today + 7) == ExpiringSoon
    ensures Classify(today, today + 8) == Active
    ensures Classify(today, today - 1) == Expired
  {
  }

  /** The two buckets never overlap, and a NULL date is in neither. */
  lemma BucketsDisjoint(today: Day, date: Option<Day>)
    ensures ExpiredTerm(today, date) + SoonTerm(today, date) <= 1
    ensures date.None? ==> ExpiredTerm(today, date) == 0 && SoonTerm(today, date) == 0
  {
  }

  // ---------------------------------------------------------------------------
  // Aggregates

  /** `SUM(term)` over the rows of a table, which is NULL for an empty table. */
  function Sum<T>(rows: seq<T>, term: T -> nat): (r: Option<nat>)
    ensures r.None? <==> |rows| == 0
  {
    if |rows| == 0 then None else Some(Total(rows, term))
  }

  /** The sum of `term` over all rows (0 for none). */
  function Total<T>(rows: seq<T>, term: T -> nat): nat {
    if |rows| == 0 then 0 else Total(rows[..|rows| - 1], term) + term(rows[|rows| - 1])
  }

  /** The number of row positions whose term is 1. */
  function CountedIndices<T>(rows: seq<T>, term: T -> nat): set<nat> {
    set i: nat | i < |rows| && term(rows[i]) == 1
  }

  /** For 0/1 terms the running sum is the number of rows the term counts. */
  lemma {:induction false} TotalIsCount<T>(rows: seq<T>, term: T -> nat)
    requires forall x :: term(x) <= 1
    ensures Total(rows, term) == |CountedIndices(rows, term)|
  {
    if |rows| > 0 {
      var n := |rows| - 1;
      var init := rows[..n];
      TotalIsCount(init, term);
      var before := CountedIndices(init, term);
      var after := CountedIndices(rows, term);
      if term(rows[n]) == 1 {
        assert after == before + {n};
      } else {
        assert after == before;
      }
    }
  }

  lemma {:induction false} TotalAppend<T>(rows: seq<T>, more: seq<T>, term: T -> nat)
    ensures Total(rows + more, term) == Total(rows, term) + Total(more, term)
  {
    if |more| > 0 {
      var m := |more| - 1;
      assert (rows + more)[..|rows + more| - 1] == rows + more[..m];
      TotalAppend(rows, more[..m], term);
    } else {
      assert rows + more == rows;
    }
  }

  /** Two terms that never both count a row add up to at most the row count. */
  lemma {:induction false} DisjointTotals<T>(rows: seq<T>, a: T -> nat, b: T -> nat)
    requires forall x :: a(x) + b(x) <= 1
    ensures Total(rows, a) + Total(rows, b) <= |rows|
  {
    if |rows| > 0 {
      DisjointTotals(rows[..|rows| - 1], a, b);
    }
  }

  /** Two tables whose rows agree on the term pointwise have the same total. */
  lemma {:induction false} TotalPointwise<T, U>(xs: seq<T>, ys: seq<U>, f: T -> nat, g: U -> nat)
    requires |xs| == |ys|
    requires forall i :: 0 <= i < |xs| ==> f(xs[i]) == g(ys[i])
    ensures Total(xs, f) == Total(ys, g)
  {
    if |xs| > 0 {
      TotalPointwise(xs[..|xs| - 1], ys[..|ys| - 1], f, g);
    }
  }

  // ---------------------------------------------------------------------------
  // The summary row

  datatype Summary = Summary(
    totalLicenses: nat,
    activeLicenses: Option<nat>,
    expiredLicenses: Option<nat>,
    expiringSoonLicenses: Option<nat>,
    totalContracts: nat,
    expiringSoonContracts: Option<nat>,
    expiredContracts: Option<nat>)

  function LicenseExpired(today: Day): License -> nat {
    (l: License) => ExpiredTerm(today, l.expiryDate)
  }

  function LicenseSoon(today: Day): License -> nat {
    (l: License) => SoonTerm(today, l.expiryDate)
  }

  function ContractExpired(today: Day): Contract -> nat {
    (c: Contract) => ExpiredTerm(today, c.endDate)
  }

  function ContractSoon(today: Day): Contract -> nat {
    (c: Contract) => SoonTerm(today, c.endDate)
  }

  /** The rows each license term counts, described by the classifier. */
  lemma LicenseBuckets(today: Day, licenses: seq<License>)
    ensures CountedIndices(licenses, ActiveTerm)
         == set i: nat | i < |licenses| && licenses[i].isActive == Some(1)
    ensures CountedIndices(licenses, LicenseExpired(today))
         == set i: nat | i < |licenses| && licenses[i].expiryDate.Some?
                          && Classify(today, licenses[i].expiryDate.value) == Expired
    ensures CountedIndices(licenses, LicenseSoon(today))
         == set i: nat | i < |licenses| && licenses[i].expiryDate.Some?
                          && Classify(today, licenses[i].expiryDate.value) == ExpiringSoon
  {
  }

  /** The rows each contract term counts, described by the classifier. */
  lemma ContractBuckets(today: Day, contracts: seq<Contract>)
    ensures CountedIndices(contracts, ContractExpired(today))
         == set i: nat | i < |contracts| && contracts[i].endDate.Some?
                          && Classify(today, contracts[i].endDate.value) == Expired
    ensures CountedIndices(contracts, ContractSoon(today))
         == set i: nat | i < |contracts| && contracts[i].endDate.Some?
                          && Classify(today, contracts[i].endDate.value) == ExpiringSoon
  {
  }

  /** The single row the summary query yields. Contracts carry no active flag,
      so they get no active count. */
  function SummaryCounts(today: Day, licenses: seq<License>, contracts: seq<Contract>): (r: Summary)
    ensures r.totalLicenses == |licenses| && r.totalContracts == |contracts|
    ensures r.activeLicenses.Some? ==>
              r.activeLicenses.value == |set i: nat | i < |licenses| && licenses[i].isActive == Some(1)|
    ensures r.expiredLicenses.Some? ==>
              r.expiredLicenses.value
              == |set i: nat | i < |licenses| && licenses[i].expiryDate.Some?
                                && Classify(today, licenses[i].expiryDate.value) == Expired|
    ensures r.expiringSoonLicenses.Some? ==>
              r.expiringSoonLicenses.value
              == |set i: nat | i < |licenses| && licenses[i].expiryDate.Some?
                                && Classify(today, licenses[i].expiryDate.value) == ExpiringSoon|
    ensures r.expiredContracts.Some? ==>
              r.expiredContracts.value
              == |set i: nat | i < |contracts| && contracts[i].endDate.Some?
                                && Classify(today, contracts[i].endDate.value) == Expired|
    ensures r.expiringSoonContracts.Some? ==>
              r.expiringSoonContracts.value
              == |set i: nat | i < |contracts| && contracts[i].endDate.Some?
                                && Classify(today, contracts[i].endDate.value) == ExpiringSoon|
    ensures (r.activeLicenses.None? <==> |licenses| == 0)
            && (r.expiredLicenses.None? <==> |licenses| == 0)
            && (r.expiringSoonLicenses.None? <==> |licenses| == 0)
            && (r.expiredContracts.None? <==> |contracts| == 0)
            && (r.expiringSoonContracts.None? <==> |contracts| == 0)
  {
    var r := Summary(
      |licenses|,
      Sum(licenses, ActiveTerm),
      Sum(licenses, LicenseExpired(today)),
      Sum(licenses, LicenseSoon(today)),
      |contracts|,
      Sum(contracts, ContractSoon(today)),
      Sum(contracts, ContractExpired(today)));
    TotalIsCount(licenses, ActiveTerm);
    TotalIsCount(licenses, LicenseExpired(today));
    TotalIsCount(licenses, LicenseSoon(today));
    TotalIsCount(contracts, ContractExpired(today));
    TotalIsCount(contracts, ContractSoon(today));
    LicenseBuckets(today, licenses);
    ContractBuckets(today, contracts);
    r
  }

  /** For each family the expired and expiring-soon buckets together never
      exceed the table's total. */
  lemma BucketsWithinTotal(today: Day, licenses: seq<License>, contracts: seq<Contract>)
    ensures var s := SummaryCounts(today, licenses, contracts);
            s.expiredLicenses.GetOr(0) + s.expiringSoonLicenses.GetOr(0) <= s.totalLicenses
            && s.expiredContracts.GetOr(0) + s.expiringSoonContracts.GetOr(0) <= s.totalContracts
  {
    DisjointTotals(licenses, LicenseExpired(today), LicenseSoon(today));
    DisjointTotals(contracts, ContractExpired(today), ContractSoon(today));
  }

  /** A license without an expiry date adds one to the total and nothing to the
      expired or expiring-soon counts; on an empty table those counts go from
      NULL to 0. */
  lemma UndatedLicenseCountsOnlyInTotal(today: Day, licenses: seq<License>, flag: Option<int>, contracts: seq<Contract>)
    ensures var before := SummaryCounts(today, licenses, contracts);
            var after := SummaryCounts(today, licenses + [License(None, flag)], contracts);
            && after.totalLicenses == before.totalLicenses + 1
            && after.expiredLicenses == Some(before.expiredLicenses.GetOr(0))
            && after.expiringSoonLicenses == Some(before.expiringSoonLicenses.GetOr(0))
            && (|licenses| > 0 ==>
                  after.expiredLicenses == before.expiredLicenses
                  && after.expiringSoonLicenses == before.expiringSoonLicenses)
  {
    var extra := [License(None, flag)];
    TotalAppend(licenses, extra, LicenseExpired(today));
    TotalAppend(licenses, extra, LicenseSoon(today));
    assert extra[..0] == [];
  }

  /** The active count reads only the `is_active` flag: moving any expiry dates
      leaves it unchanged. */
  lemma ActiveIgnoresDates(today: Day, licenses: seq<License>, redated: seq<License>, contracts: seq<Contract>)
    requires |licenses| == |redated|
    requires forall i :: 0 <= i < |licenses| ==> licenses[i].isActive == redated[i].isActive
    ensures SummaryCounts(today, licenses, contracts).activeLicenses
         == SummaryCounts(today, redated, contracts).activeLicenses
  {
    TotalPointwise(licenses, redated, ActiveTerm, ActiveTerm);
  }

  // ---------------------------------------------------------------------------
  // The endpoint

  datatype SummaryReply = SummaryReply(status: int, error: bool, data: Option<Summary>, message: string)

  const SummaryFailedMessage := "An error occurred while fetching summary counts."

  /** `getSummaryCount`: the aggregate query always yields exactly one row, so
      the handler's not-found answer can never be given; a store failure
      answers 500. */
  function GetSummaryCount(today: Day, licenses: seq<License>, contracts: seq<Contract>, failure: Option<string>): (r: SummaryReply)
    ensures failure.Some? ==> r == SummaryReply(500, true, None, SummaryFailedMessage)
    ensures failure.None? ==> r.status == 200 && !r.error
                              && r.data == Some(SummaryCounts(today, licenses, contracts))
    ensures r.status != 404
  {
    if failure.Some? then SummaryReply(500, true, None, SummaryFailedMessage)
    else SummaryReply(200, false, Some(SummaryCounts(today, licenses, contracts)), "All Summary Counts")
  }
}

=== FILE: resolver.dfy ===
/** The latest-notification query shared by the list endpoint and the webhook
    push (`getAllNotifications`, `getNotificationsForWebhook`). Rows are grouped
    by license id, or by contract id when the license id is NULL; a row is
    returned when its creation time equals its group's latest, and the result
    is ordered newest first. */
module Resolver {
  import opened Common

  type Timestamp = int

  datatype Notification = Notification(
    notificationId: nat,
    licenseId: Option<nat>,
    contractId: Option<nat>,
    message: Option<string>,
    expiryDate: Option<Timestamp>,
    isRead: int,
    readAt: Option<Timestamp>,
    adminUserId: Option<nat>,
    createdAt: Timestamp)

  /** The group key: the license id when it is set, else the contract id. */
  function Key(n: Notification): (k: Option<nat>)
    ensures n.licenseId.Some? ==> k == n.licenseId
    ensures n.licenseId.None? ==> k == n.contractId
  {
    if n.licenseId.Some? then n.licenseId else n.contractId
  }

  /** The latest creation time among the rows whose key is `key`; None when
      there are none. */
  function GroupMax(rows: seq<Notification>, key: Option<nat>): (r: Option<Timestamp>)
    ensures r.None? <==> forall i :: 0 <= i < |rows| ==> Key(rows[i]) != key
    ensures r.Some? ==> exists i :: 0 <= i < |rows| && Key(rows[i]) == key && rows[i].createdAt == r.value
    ensures r.Some? ==> forall i :: 0 <= i < |rows| && Key(rows[i]) == key ==> rows[i].createdAt <= r.value
  {
    if |rows| == 0 then None
    else
      var last := rows[|rows| - 1];
      var m := GroupMax(rows[..|rows| - 1], key);
      if Key(last) != key then m
      else if m.Some? && m.value >= last.createdAt then m
      else Some(last.createdAt)
  }

  /** The join condition: the row has a non-NULL key (NULL never equals NULL)
      and carries its group's maximum `created_at`. */
  predicate IsLatest(rows: seq<Notification>, n: Notification) {
    Key(n).Some? && GroupMax(rows, Key(n)) == Some(n.createdAt)
  }

  /** The rows of `part` that pass the join against the groups of `all`, in order. */
  function KeepLatest(all: seq<Notification>, part: seq<Notification>): (r: seq<Notification>)
    ensures forall n :: multiset(r)[n] == if IsLatest(all, n) then multiset(part)[n] else 0
  {
    if |part| == 0 then []
    else
      var rest := KeepLatest(all, part[1..]);
      assert part == [part[0]] + part[1..];
      if IsLatest(all, part[0]) then [part[0]] + rest else rest
  }

  predicate NewestFirst(s: seq<Notification>) {
    forall i, j :: 0 <= i < j < |s| ==> s[i].createdAt >= s[j].createdAt
  }

  /** Puts `x` before the first row that is not newer than it. */
  function Insert(x: Notification, s: seq<Notification>): (r: seq<Notification>)
    requires NewestFirst(s)
    ensures NewestFirst(r)
    ensures multiset(r) == multiset(s) + multiset{x}
    ensures |r| == |s| + 1
    ensures r[0] == x || (|s| > 0 && r[0] == s[0])
  {
    if |s| == 0 || x.createdAt >= s[0].createdAt then [x] + s
    else
      var tail := Insert(x, s[1..]);
      assert s == [s[0]] + s[1..];
      assert multiset(s) == multiset{s[0]} + multiset(s[1..]);
      ConsNewestFirst(s[0], tail);
      [s[0]] + tail
  }

  /** A row no older than the head of a newest-first list can go in front of it. */
  lemma ConsNewestFirst(h: Notification, t: seq<Notification>)
    requires NewestFirst(t) && (|t| == 0 || h.createdAt >= t[0].createdAt)
    ensures NewestFirst([h] + t)
  {
    forall i, j | 0 <= i < j < |[h] + t|
      ensures ([h] + t)[i].createdAt >= ([h] + t)[j].createdAt
    {
      if i == 0 {
        assert ([h] + t)[j] == t[j - 1];
      }
    }
  }

  /** `ORDER BY created_at DESC` (stable: rows with equal timestamps keep their
      relative order). */
  function SortNewestFirst(s: seq<Notification>): (r: seq<Notification>)
    ensures NewestFirst(r)
    ensures multiset(r) == multiset(s)
  {
    if |s| == 0 then []
    else
      assert s == [s[0]] + s[1..];
      Insert(s[0], SortNewestFirst(s[1..]))
  }

  /** The resolver query over the whole notification table. */
  function Latest(rows: seq<Notification>): (r: seq<Notification>)
    ensures NewestFirst(r)
    ensures forall n :: multiset(r)[n] == if IsLatest(rows, n) then multiset(rows)[n] else 0
  {
    SortNewestFirst(KeepLatest(rows, rows))
  }

  // ---------------------------------------------------------------------------
  // Properties of the resolver

  /** The join condition restated over the table's rows: a non-NULL key and no
      newer row in the same group. */
  lemma IsLatestIff(rows: seq<Notification>, n: Notification)
    requires n in rows
    ensures IsLatest(rows, n) <==>
              Key(n).Some? && forall m :: m in rows && Key(m) == Key(n) ==> m.createdAt <= n.createdAt
  {
    var g := GroupMax(rows, Key(n));
    var i :| 0 <= i < |rows| && rows[i] == n;
    assert g.Some?;
    if Key(n).Some? && forall m :: m in rows && Key(m) == Key(n) ==> m.createdAt <= n.createdAt {
      var j :| 0 <= j < |rows| && Key(rows[j]) == Key(n) && rows[j].createdAt == g.value;
      assert rows[j] in rows;
    }
    if IsLatest(rows, n) {
      forall m | m in rows && Key(m) == Key(n)
        ensures m.createdAt <= n.createdAt
      {
        var k :| 0 <= k < |rows| && rows[k] == m;
      }
    }
  }

  /** A row is returned exactly when it is in the table with a non-NULL key
      and no row of its group is newer. */
  lemma LatestMembership(rows: seq<Notification>, n: Notification)
    ensures n in Latest(rows) <==>
              n in rows && Key(n).Some?
              && forall m :: m in rows && Key(m) == Key(n) ==> m.createdAt <= n.createdAt
  {
    var r := Latest(rows);
    assert n in r <==> multiset(r)[n] > 0;
    assert n in rows <==> multiset(rows)[n] > 0;
    if n in rows {
      IsLatestIff(rows, n);
    }
  }

  /** Every entity that has a keyed notification is represented in the result
      by a row of its group that is at least as new. */
  lemma EveryEntityRepresented(rows: seq<Notification>, n: Notification)
    requires n in rows && Key(n).Some?
    ensures exists m :: m in Latest(rows) && Key(m) == Key(n) && m.createdAt >= n.createdAt
  {
    var i :| 0 <= i < |rows| && rows[i] == n;
    var g := GroupMax(rows, Key(n));
    var j :| 0 <= j < |rows| && Key(rows[j]) == Key(n) && rows[j].createdAt == g.value;
    var m := rows[j];
    assert IsLatest(rows, m);
    assert multiset(rows)[m] > 0;
    assert multiset(Latest(rows))[m] > 0;
  }

  /** Rows tied at their group's maximum are all returned: there is no tie-break. */
  lemma TiesAllReturned(rows: seq<Notification>, a: Notification, b: Notification)
    requires a in rows && b in rows && a != b
    requires Key(a).Some? && Key(a) == Key(b) && a.createdAt == b.createdAt
    requires forall m :: m in rows && Key(m) == Key(a) ==> m.createdAt <= a.createdAt
    ensures a in Latest(rows) && b in Latest(rows)
  {
    LatestMembership(rows, a);
    LatestMembership(rows, b);
  }

  /** Rows with neither a license id nor a contract id are never returned. */
  lemma UnkeyedRowsDropped(rows: seq<Notification>, n: Notification)
    requires n.licenseId.None? && n.contractId.None?
    ensures n !in Latest(rows)
  {
    assert multiset(Latest(rows))[n] == 0;
  }

  /** License `k` and contract `k` fall in the same group, so the newer one hides
      the older one. */
  lemma LicenseAndContractShareKey(rows: seq<Notification>, lic: Notification, con: Notification)
    requires lic.licenseId.Some? && con.licenseId.None? && con.contractId == lic.licenseId
    requires lic in rows && con in rows && lic.createdAt > con.createdAt
    ensures con !in Latest(rows)
  {
    LatestMembership(rows, con);
  }

  /** The result is empty exactly when no row has a key. */
  lemma LatestEmptyIff(rows: seq<Notification>)
    ensures |Latest(rows)| == 0 <==> forall i :: 0 <= i < |rows| ==> Key(rows[i]).None?
  {
    if |Latest(rows)| == 0 {
      forall i | 0 <= i < |rows|
        ensures Key(rows[i]).None?
      {
        if Key(rows[i]).Some? {
          EveryEntityRepresented(rows, rows[i]);
        }
      }
    } else {
      var n := Latest(rows)[0];
      assert multiset(Latest(rows))[n] > 0;
      assert n in rows;
    }
  }

  /** Every returned row is still the latest of its group among the returned rows. */
  lemma LatestRowsStayLatest(rows: seq<Notification>, n: Notification)
    requires n in Latest(rows)
    ensures IsLatest(Latest(rows), n)
  {
    var r := Latest(rows);
    assert multiset(r)[n] > 0;
    var g := GroupMax(r, Key(n));
    var i :| 0 <= i < |r| && r[i] == n;
    var j :| 0 <= j < |r| && Key(r[j]) == Key(n) && r[j].createdAt == g.value;
    assert multiset(r)[r[j]] > 0;
    assert IsLatest(rows, r[j]) && IsLatest(rows, n);
  }

  lemma {:induction false} KeepAllLatest(all: seq<Notification>, part: seq<Notification>)
    requires forall x :: x in part ==> IsLatest(all, x)
    ensures KeepLatest(all, part) == part
  {
    if |part| > 0 {
      KeepAllLatest(all, part[1..]);
      assert part[0] in part;
    }
  }

  lemma {:induction false} SortKeepsSorted(s: seq<Notification>)
    requires NewestFirst(s)
    ensures SortNewestFirst(s) == s
  {
    if |s| > 0 {
      SortKeepsSorted(s[1..]);
      assert [s[0]] + s[1..] == s;
    }
  }

  /** Resolving the resolver's own output changes nothing: superseded rows are
      already gone and the order is already newest first. */
  lemma LatestIdempotent(rows: seq<Notification>)
    ensures Latest(Latest(rows)) == Latest(rows)
  {
    var r := Latest(rows);
    forall x | x in r
      ensures IsLatest(r, x)
    {
      LatestRowsStayLatest(rows, x);
    }
    KeepAllLatest(r, r);
    SortKeepsSorted(r);
  }
}

=== FILE: uploads.dfy ===
/** File uploads: the multer configuration's callbacks (`middlewares/uploader.js`),
    the `checkFileUrl` rewrite of the license-file routes, and the result
    mapping of the image-upload controller. The clock and the random number
    (rounded, between 0 and 10^9) are parameters. */
module Uploads {
  import opened Common
  import opened Auth

  /** The multer file object the handlers read as `req.file`. */
  datatype UploadedFile = UploadedFile(originalname: string, filename: string, mimetype: string, size: nat)

  // ---------------------------------------------------------------------------
  // Storage callbacks

  /** The `destination` callback. */
  function Destination(destination: string, file: UploadedFile): string {
    destination
  }

  /** Every file goes to the configured folder, unchanged. */
  lemma DestinationIsConfigured(destination: string, a: UploadedFile, b: UploadedFile)
    ensures Destination(destination, a) == destination
    ensures Destination(destination, a) == Destination(destination, b)
  {
  }

  /** Largest random number the stored name can carry. */
  const MaxRandom := 1_000_000_000

  /** The `filename` callback: `<time>-<random>-<lower-cased original name>`. */
  function StoredName(time: nat, rnd: nat, originalname: string): (r: string)
    requires rnd <= MaxRandom
    ensures EndsWith(r, "-" + ToLower(originalname))
  {
    var suffix := NatToDecimal(time) + "-" + NatToDecimal(rnd);
    var r := suffix + "-" + ToLower(originalname);
    assert r[|r| - |"-" + ToLower(originalname)|..] == "-" + ToLower(originalname);
    r
  }

  /** Reads a stored name back into its time, random number and lower-cased
      original name, by cutting at its first two dashes. */
  function ParseStoredName(name: string): Option<(nat, nat, string)> {
    match SplitFirst(name, '-')
    case None => None
    case Some((time, rest)) =>
      match SplitFirst(rest, '-')
      case None => None
      case Some((rnd, original)) =>
        if AllDigits(time) && AllDigits(rnd) then Some((ParseDecimal(time), ParseDecimal(rnd), original))
        else None
  }

  /** The stored name keeps all three parts recoverable, even when the original
      name itself contains dashes. */
  lemma StoredNameRoundTrip(time: nat, rnd: nat, originalname: string)
    requires rnd <= MaxRandom
    ensures ParseStoredName(StoredName(time, rnd, originalname)) == Some((time, rnd, ToLower(originalname)))
  {
    var t := NatToDecimal(time);
    var n := NatToDecimal(rnd);
    var low := ToLower(originalname);
    assert '-' !in t by { assert forall i :: 0 <= i < |t| ==> IsDigit(t[i]); }
    assert '-' !in n by { assert forall i :: 0 <= i < |n| ==> IsDigit(n[i]); }
    assert StoredName(time, rnd, originalname) == t + ['-'] + (n + ['-'] + low);
    SplitFirstAfterPrefix(t, '-', n + ['-'] + low);
    SplitFirstAfterPrefix(n, '-', low);
    ParseNatToDecimal(time);
    ParseNatToDecimal(rnd);
  }

  // ---------------------------------------------------------------------------
  // The file filter

  const AllowedTypes: seq<string> := [
    "image/jpg", "image/jpeg", "image/png", "image/webp", "image/svg+xml",
    "application/pdf", "text/plain", "application/msword",
    "application/vnd.openxmlformats-officedocument.wordprocessingml.document"
  ]

  const InvalidTypeMessage := "Invalid file type. Allowed file types: Images, PDFs, Word documents, and plain text."

  /** How the filter answers multer: accept the file, or refuse it with an error. */
  datatype FilterDecision = Accept | Reject(error: string)

  function FileFilter(mimetype: string): (r: FilterDecision)
    ensures r.Accept? <==> mimetype in AllowedTypes
    ensures r.Reject? ==> r.error == InvalidTypeMessage
  {
    if mimetype !in AllowedTypes then Reject(InvalidTypeMessage) else Accept
  }

  /** The whitelist holds nine distinct types, and the test is exact: letter
      case matters. */
  lemma FilterWhitelist()
    ensures |AllowedTypes| == 9
    ensures forall i, j :: 0 <= i < j < |AllowedTypes| ==> AllowedTypes[i] != AllowedTypes[j]
    ensures FileFilter("image/png").Accept? && FileFilter("IMAGE/PNG").Reject?
    ensures FileFilter("image/gif").Reject?
  {
    assert "IMAGE/PNG"[0] != "image/png"[0];
  }

  // ---------------------------------------------------------------------------
  // `checkFileUrl`

  /** The middleware always calls `next` once; the only thing it can change is
      `req.file.filename`. */
  function CheckFileUrl(file: Option<UploadedFile>, fileServerUrl: string): (r: Option<UploadedFile>)
    ensures file.None? ==> r.None?
    ensures file.Some? ==>
              && r.Some?
              && r.value == file.value.(filename := r.value.filename)
              && (StartsWith(ToLower(file.value.originalname), fileServerUrl) ==>
                    r.value.filename == ToLower(file.value.originalname))
              && (!StartsWith(ToLower(file.value.originalname), fileServerUrl) ==> r.value == file.value)
  {
    match file
    case None => None
    case Some(f) =>
      var lower := ToLower(f.originalname);
      if StartsWith(lower, fileServerUrl) then Some(f.(filename := lower)) else Some(f)
  }

  /** Only the name is lowered, not the configured URL: a URL with an upper-case
      letter never matches, so the file passes through untouched. */
  lemma UpperCaseUrlNeverMatches(file: UploadedFile, fileServerUrl: string)
    requires HasUpper(fileServerUrl)
    ensures CheckFileUrl(Some(file), fileServerUrl) == Some(file)
  {
    LowerNeverStartsWithUpper(file.originalname, fileServerUrl);
  }

  /** Running the middleware twice changes nothing more. */
  lemma CheckFileUrlIdempotent(file: Option<UploadedFile>, fileServerUrl: string)
    ensures CheckFileUrl(CheckFileUrl(file, fileServerUrl), fileServerUrl) == CheckFileUrl(file, fileServerUrl)
  {
  }

  // ---------------------------------------------------------------------------
  // The image-upload controller

  datatype FileMeta = FileMeta(filePath: string, fileName: string, fileType: string, fileSize: string)
  datatype SaveResult = SaveResult(error: bool, message: string, data: Option<FileMeta>)

  /** `saveImage`: the metadata of a stored file, or an error without data. */
  function SaveImage(file: Option<UploadedFile>, fileServerUrl: string): (r: SaveResult)
    ensures file.None? ==> r == SaveResult(true, "No Image Selected", None)
    ensures file.Some? ==> !r.error && r.message == "Image Uploaded Successfully" && r.data.Some?
    ensures file.Some? ==>
              var meta := r.data.value;
              && StartsWith(meta.filePath, fileServerUrl)
              && meta.filePath[|fileServerUrl|..] == file.value.filename
              && meta.fileName == file.value.originalname
              && meta.fileType == file.value.mimetype
              && Canonical(meta.fileSize) && ParseDecimal(meta.fileSize) == file.value.size
  {
    match file
    case None => SaveResult(true, "No Image Selected", None)
    case Some(f) =>
      ParseNatToDecimal(f.size);
      var path := fileServerUrl + f.filename;
      assert path[..|fileServerUrl|] == fileServerUrl;
      SaveResult(false, "Image Uploaded Successfully",
                 Some(FileMeta(path, f.originalname, f.mimetype, NatToDecimal(f.size))))
  }

  /** The JSON answer of the upload endpoints; `file` is the reported path. */
  datatype UploadReply = UploadReply(status: int, ok: bool, message: string, file: Option<string>)

  const NoImageMessage := "No image uploaded"
  const NoImagesMessage := "No images uploaded"
  const UploadedMessage := "Image uploaded successfully"

  /** `uploadSingleImage`: the token is checked before the file. */
  function UploadSingleImage(decoded: Option<Decoded>, file: Option<UploadedFile>, fileServerUrl: string): (r: UploadReply)
    ensures !HasUser(decoded) ==> r == UploadReply(422, false, MissingUserMessage, None)
    ensures HasUser(decoded) && file.None? ==> r == UploadReply(400, false, NoImageMessage, None)
    ensures HasUser(decoded) && file.Some? ==>
              r.status == 200 && r.ok && r.file.Some?
              && StartsWith(r.file.value, fileServerUrl)
              && r.file.value[|fileServerUrl|..] == file.value.filename
  {
    if !HasUser(decoded) then UploadReply(422, false, MissingUserMessage, None)
    else match file
      case Some(f) =>
        var path := fileServerUrl + f.filename;
        assert path[..|fileServerUrl|] == fileServerUrl;
        UploadReply(200, true, UploadedMessage, Some(path))
      case None => UploadReply(400, false, NoImageMessage, None)
  }

  /** `uploadMultipleImages`: success is decided by `req.files`, but the path
      reported comes from `req.file`. */
  function UploadMultipleImages(decoded: Option<Decoded>, file: Option<UploadedFile>,
                                files: Option<seq<UploadedFile>>, fileServerUrl: string): (r: UploadReply)
    ensures !HasUser(decoded) ==> r == UploadReply(422, false, MissingUserMessage, None)
    ensures HasUser(decoded) ==> (r.status == 200 <==> files.Some? && |files.value| > 0)
    ensures HasUser(decoded) && r.status != 200 ==> r == UploadReply(400, false, NoImagesMessage, None)
    ensures r.status == 200 ==> r.ok && (r.file.Some? <==> file.Some?)
    ensures r.status == 200 && file.Some? ==>
              StartsWith(r.file.value, fileServerUrl) && r.file.value[|fileServerUrl|..] == file.value.filename
  {
    if !HasUser(decoded) then UploadReply(422, false, MissingUserMessage, None)
    else if files.Some? && |files.value| > 0 then
      if file.Some? then
        var path := fileServerUrl + file.value.filename;
        assert path[..|fileServerUrl|] == fileServerUrl;
        UploadReply(200, true, UploadedMessage, Some(path))
      else UploadReply(200, true, UploadedMessage, None)
    else UploadReply(400, false, NoImagesMessage, None)
  }

  /** Several files uploaded and no single `req.file`: the answer is a success
      that reports no path at all. */
  lemma MultipleUploadReportsNoPath(decoded: Option<Decoded>, files: seq<UploadedFile>, fileServerUrl: string)
    requires HasUser(decoded) && |files| > 0
    ensures UploadMultipleImages(decoded, None, Some(files), fileServerUrl) == UploadReply(200, true, UploadedMessage, None)
  {
  }
}

=== FILE: users.dfy ===
/** `UserController.updateById`: the guard branches, the dynamic
    `UPDATE admin_users SET ...` statement it builds, and how the outcome of
    that statement is answered. The driver's `escape` is an oracle; so is the
    password hash, of which only the failure matters (the hash itself is never
    written). */
module Users {
  import opened Common
  import opened Auth

  /** A parsed JSON request body. */
  type Body = map<string, JsValue>

  /** `req.body.<name>`: `undefined` when the field is absent. */
  function BodyField(body: Body, name: string): JsValue {
    if name in body then body[name] else Undefined
  }

  /** Request-body field and the `admin_users` column it is stored in, in the
      order the `updateData` object lists them. */
  const Renames: seq<(string, string)> := [
    ("name", "user_name"),
    ("email", "user_email"),
    ("mobile", "user_mobile"),
    ("role", "user_role"),
    ("status", "user_status"),
    ("photo", "user_photo"),
    ("address", "user_address")
  ]

  const UpdatedByColumn := "updated_by"

  /** Every column `updateData` can set, in its key order. */
  const Columns: seq<string> := [
    "user_name", "user_email", "user_mobile", "user_role",
    "user_status", "user_photo", "user_address", "updated_by"
  ]

  /** The body field stored in a column, looked up in `fields`. */
  function FieldFor(column: string, fields: seq<(string, string)>): Option<string> {
    if |fields| == 0 then None
    else if fields[0].1 == column then Some(fields[0].0)
    else FieldFor(column, fields[1..])
  }

  /** The value `updateData` holds for a column: the renamed body field, or the
      token's user id for `updated_by`. */
  function ColumnValue(body: Body, userId: JsValue, column: string): JsValue {
    if column == UpdatedByColumn then userId
    else match FieldFor(column, Renames)
      case Some(field) => BodyField(body, field)
      case None => Undefined
  }

  /** The `updateData` object literal, as its ordered list of entries. */
  function UpdateData(body: Body, userId: JsValue): seq<(string, JsValue)> {
    [
      ("user_name", BodyField(body, "name")),
      ("user_email", BodyField(body, "email")),
      ("user_mobile", BodyField(body, "mobile")),
      ("user_role", BodyField(body, "role")),
      ("user_status", BodyField(body, "status")),
      ("user_photo", BodyField(body, "photo")),
      ("user_address", BodyField(body, "address")),
      ("updated_by", userId)
    ]
  }

  /** Drops the entries whose value is `undefined`; a `null` value is kept. */
  function Defined(entries: seq<(string, JsValue)>): (r: seq<(string, JsValue)>)
    ensures forall p :: p in r <==> p in entries && p.1 != Undefined
  {
    if |entries| == 0 then []
    else
      var rest := Defined(entries[1..]);
      assert entries == [entries[0]] + entries[1..];
      if entries[0].1 != Undefined then [entries[0]] + rest else rest
  }

  function ColumnsOf(entries: seq<(string, JsValue)>): (r: seq<string>)
    ensures |r| == |entries|
    ensures forall i :: 0 <= i < |entries| ==> r[i] == entries[i].0
  {
    if |entries| == 0 then [] else [entries[0].0] + ColumnsOf(entries[1..])
  }

  /** The columns of `cols` whose value is not `undefined`, in order. */
  function DefinedColumns(cols: seq<string>, value: string -> JsValue): seq<string> {
    if |cols| == 0 then []
    else if value(cols[0]) != Undefined then [cols[0]] + DefinedColumns(cols[1..], value)
    else DefinedColumns(cols[1..], value)
  }

  lemma {:induction false} DefinedKeepsColumnOrder(entries: seq<(string, JsValue)>, value: string -> JsValue)
    requires forall i :: 0 <= i < |entries| ==> entries[i].1 == value(entries[i].0)
    ensures ColumnsOf(Defined(entries)) == DefinedColumns(ColumnsOf(entries), value)
  {
    if |entries| > 0 {
      DefinedKeepsColumnOrder(entries[1..], value);
      var rest := Defined(entries[1..]);
      if entries[0].1 != Undefined {
        assert ([entries[0]] + rest)[1..] == rest;
      }
    }
  }

  /** The value `updateData` holds for each column, as a function. */
  function ValueOf(body: Body, userId: JsValue): string -> JsValue {
    (c: string) => ColumnValue(body, userId, c)
  }

  /** The assignments of the SET clause: exactly the columns whose value is not
      `undefined`, each with its value, in the fixed column order. */
  function Assignments(body: Body, userId: JsValue): (r: seq<(string, JsValue)>)
    ensures forall p :: p in r <==> p.0 in Columns && p.1 == ColumnValue(body, userId, p.0) && p.1 != Undefined
    ensures ColumnsOf(r) == DefinedColumns(Columns, ValueOf(body, userId))
    ensures userId != Undefined ==> |r| > 0 && r[|r| - 1] == (UpdatedByColumn, userId)
  {
    UpdateDataEntries(body, userId);
    UpdateDataMembership(body, userId);
    var data := UpdateData(body, userId);
    DefinedKeepsColumnOrder(data, ValueOf(body, userId));
    var r := Defined(data);
    if userId != Undefined then DefinedKeepsDefinedLast(data); r else r
  }

  /** Looking each column up in the renaming table finds its body field. */
  lemma RenamedFields()
    ensures FieldFor("user_name", Renames) == Some("name")
    ensures FieldFor("user_email", Renames) == Some("email")
    ensures FieldFor("user_mobile", Renames) == Some("mobile")
    ensures FieldFor("user_role", Renames) == Some("role")
    ensures FieldFor("user_status", Renames) == Some("status")
    ensures FieldFor("user_photo", Renames) == Some("photo")
    ensures FieldFor("user_address", Renames) == Some("address")
  {
  }

  /** The entries of `updateData` are exactly the columns with their values,
      in column order. */
  lemma UpdateDataEntries(body: Body, userId: JsValue)
    ensures ColumnsOf(UpdateData(body, userId)) == Columns
    ensures forall i :: 0 <= i < |UpdateData(body, userId)| ==>
              UpdateData(body, userId)[i].1 == ColumnValue(body, userId, UpdateData(body, userId)[i].0)
    ensures UpdateData(body, userId)[|Columns| - 1] == (UpdatedByColumn, userId)
  {
    UpdateDataColumns(body, userId);
    RenamedFields();
  }

  lemma UpdateDataColumns(body: Body, userId: JsValue)
    ensures ColumnsOf(UpdateData(body, userId)) == Columns
  {
  }

  /** An entry is in `updateData` exactly when it pairs a column with that
      column's value. */
  lemma UpdateDataMembership(body: Body, userId: JsValue)
    ensures forall p :: p in UpdateData(body, userId) <==> p.0 in Columns && p.1 == ColumnValue(body, userId, p.0)
  {
    var d := UpdateData(body, userId);
    UpdateDataEntries(body, userId);
    forall p: (string, JsValue) | p.0 in Columns && p.1 == ColumnValue(body, userId, p.0)
      ensures p in d
    {
      var i :| 0 <= i < |Columns| && Columns[i] == p.0;
      assert d[i] == p;
    }
  }

  lemma {:induction false} DefinedKeepsDefinedLast(entries: seq<(string, JsValue)>)
    requires |entries| > 0 && entries[|entries| - 1].1 != Undefined
    ensures |Defined(entries)| > 0 && Defined(entries)[|Defined(entries)| - 1] == entries[|entries| - 1]
  {
    if |entries| > 1 {
      DefinedKeepsDefinedLast(entries[1..]);
    }
  }

  /** One assignment: the column, an equals sign, and the escaped value. */
  function Assignment(p: (string, JsValue), escape: JsValue -> string): string {
    p.0 + " = " + escape(p.1)
  }

  /** The full statement: assignments joined by ", ", then the escaped id. */
  function UpdateQuery(body: Body, userId: JsValue, id: string, escape: JsValue -> string): string {
    var a := Assignments(body, userId);
    "UPDATE admin_users SET "
    + Join(seq(|a|, i requires 0 <= i < |a| => Assignment(a[i], escape)), ", ")
    + " WHERE user_id = " + escape(Str(id))
  }

  /** The password field is not among the fields `updateData` reads. */
  lemma UpdateDataIgnoresPassword(body: Body, userId: JsValue, password: JsValue)
    ensures UpdateData(body["password" := password], userId) == UpdateData(body, userId)
  {
    var withPassword := body["password" := password];
    forall f | f in ["name", "email", "mobile", "role", "status", "photo", "address"]
      ensures BodyField(withPassword, f) == BodyField(body, f)
    {
    }
  }

  /** A supplied password never changes the statement. */
  lemma PasswordNeverWritten(body: Body, userId: JsValue, password: JsValue, id: string, escape: JsValue -> string)
    ensures UpdateQuery(body["password" := password], userId, id, escape) == UpdateQuery(body, userId, id, escape)
  {
    UpdateDataIgnoresPassword(body, userId, password);
    assert Assignments(body["password" := password], userId) == Assignments(body, userId);
  }

  /** No assignment ever targets a `user_password` column. */
  lemma PasswordColumnNeverAssigned(body: Body, userId: JsValue)
    ensures forall p :: p in Assignments(body, userId) ==> p.0 != "user_password"
  {
    assert "user_password" !in Columns;
  }

  /** Renaming is one-to-one: distinct body fields go to distinct columns. */
  lemma RenameOneToOne()
    ensures forall i, j :: 0 <= i < j < |Renames| ==> Renames[i].0 != Renames[j].0 && Renames[i].1 != Renames[j].1
    ensures forall i :: 0 <= i < |Renames| ==> Renames[i].1 == Columns[i]
  {
  }

  // ---------------------------------------------------------------------------
  // The handler

  datatype Activity = Activity(
    adminUserId: JsValue,
    actionTitle: string,
    actionDescription: string,
    tableAffected: string,
    affectedId: string)

  /** The `message` of a JSON answer: a text, or an `Error` object, which has no
      enumerable own properties and so is serialised as `{}`. */
  datatype ReplyMessage = Text(text: string) | ErrorObject

  /** The answer, the statement sent to the store (if any) and the activity
      rows logged. */
  datatype UpdateReply = UpdateReply(status: int, error: bool, message: ReplyMessage, query: Option<string>, logged: seq<Activity>)

  const MissingIdMessage := "Please provide user_id"
  const UpdatedMessage := "User Updated Successfully."
  const NotFoundMessage := "User not found"

  /** `hashFails` is whether bcrypt reports an error for the supplied password;
      the error object itself is sent as the message, not its text. */
  function UpdateById(decoded: Option<Decoded>, id: Option<string>, body: Body, hashFails: bool,
                      escape: JsValue -> string, db: DbResult<nat>): (r: UpdateReply)
    ensures !HasUser(decoded) ==> r == UpdateReply(422, true, Text(MissingUserMessage), None, [])
    ensures HasUser(decoded) && !Present(id) ==> r == UpdateReply(400, true, Text(MissingIdMessage), None, [])
    ensures HasUser(decoded) && Present(id) && Truthy(BodyField(body, "password")) && hashFails ==>
              r == UpdateReply(500, true, ErrorObject, None, [])
    ensures r.message.ErrorObject? <==>
              HasUser(decoded) && Present(id) && Truthy(BodyField(body, "password")) && hashFails
    ensures r.query.Some? <==>
              HasUser(decoded) && Present(id) && (!hashFails || !Truthy(BodyField(body, "password")))
    ensures r.query.Some? ==>
              && r.query.value == UpdateQuery(body, decoded.value.userId, id.value, escape)
              && (r.status == 200 <==> db.DbOk? && db.result > 0)
              && (r.status == 404 <==> db.DbOk? && db.result == 0)
              && (r.status == 500 <==> db.DbError?)
              && (db.DbError? ==> r.message == Text(db.message))
              && (r.status == 200 ==> !r.error && r.message == Text(UpdatedMessage))
              && (r.status == 404 ==> r.message == Text(NotFoundMessage))
    ensures |r.logged| == (if r.status == 200 then 1 else 0)
    ensures r.status == 200 ==> r.logged[0].adminUserId == decoded.value.userId && r.logged[0].affectedId == id.value
  {
    if !HasUser(decoded) then UpdateReply(422, true, Text(MissingUserMessage), None, [])
    else if !Present(id) then UpdateReply(400, true, Text(MissingIdMessage), None, [])
    else if Truthy(BodyField(body, "password")) && hashFails then
      UpdateReply(500, true, ErrorObject, None, [])
    else
      var userId := decoded.value.userId;
      var query := UpdateQuery(body, userId, id.value, escape);
      match db
      case DbError(msg) => UpdateReply(500, true, Text(msg), Some(query), [])
      case DbOk(affected) =>
        if affected > 0 then
          var activity := Activity(userId, "update", "Admin User " + JsText(BodyField(body, "name")) + " Updated",
                                   "admin_user", id.value);
          UpdateReply(200, false, Text(UpdatedMessage), Some(query), [activity])
        else UpdateReply(404, true, Text(NotFoundMessage), Some(query), [])
  }

  /** Past the guards the SET clause is never empty: `updated_by` always holds
      the (truthy) user id from the token. */
  lemma SetClauseNeverEmpty(decoded: Option<Decoded>, body: Body)
    requires HasUser(decoded)
    ensures (UpdatedByColumn, decoded.value.userId) in Assignments(body, decoded.value.userId)
  {
  }
}

=== FILE: webhook.dfy ===
/** The notification endpoints built on the resolver: the list endpoint
    (`getAllNotifications`) and the chat-webhook push
    (`getNotificationsForWebhook`), which formats the latest notifications as
    one text digest and POSTs it with at most three attempts.

    The POST itself is an oracle: `outcomes[i]` says whether the i-th POST
    succeeded (an attempt beyond the sequence fails). `Date.toLocaleString` is
    the opaque `show` parameter. */
module Webhook {
  import opened Common
  import opened Resolver

  // ---------------------------------------------------------------------------
  // The list endpoint

  datatype ListReply = ListReply(status: int, error: bool, data: seq<Notification>, message: string)

  function GetAllNotifications(table: seq<Notification>, failure: Option<string>): (r: ListReply)
    ensures failure.Some? ==> r == ListReply(500, true, [], failure.value)
    ensures failure.None? ==> r.status == 200 && !r.error && r.data == Latest(table)
  {
    match failure
    case Some(msg) => ListReply(500, true, [], msg)
    case None => ListReply(200, false, Latest(table), "All notifications retrieved successfully")
  }

  // ---------------------------------------------------------------------------
  // The digest

  const Separator := "\n--------------------\n"
  const DetailLink := "https://resourcevault.expertflow.com/#/license-detail/"
  const LinkLabel := "|Click here>"

  /** A nullable id column printed into text: NULL prints as "null". */
  function IdText(id: Option<nat>): string {
    match id
    case Some(n) => NatToDecimal(n)
    case None => "null"
  }

  /** A nullable date shown through the locale formatter; a NULL date is read
      as the epoch, so it shows as `show(0)`. */
  function ShowDate(show: Timestamp -> string, t: Option<Timestamp>): string {
    show(t.GetOr(0))
  }

  /** The text block of one notification: six lines, from the message to the
      deep link. The link always prints `license_id`, also for a contract's
      notification. */
  function FormatBlock(n: Notification, show: Timestamp -> string): (r: string)
    ensures StartsWith(r, "Notification: " + TextOr(n.message, "No Message")
                          + "\nExpiry: " + ShowDate(show, n.expiryDate)
                          + "\nCreated At: " + show(n.createdAt))
    ensures EndsWith(r, "\nRead Status: " + (if n.isRead != 0 then "Read" else "Not Read")
                        + "\nRead At: " + (if n.readAt.Some? then show(n.readAt.value) else "N/A")
                        + "\nFor Details: <" + DetailLink + IdText(n.licenseId) + LinkLabel)
  {
    var head := "Notification: " + TextOr(n.message, "No Message")
                + "\nExpiry: " + ShowDate(show, n.expiryDate)
                + "\nCreated At: " + show(n.createdAt);
    var tail := "\nRead Status: " + (if n.isRead != 0 then "Read" else "Not Read")
                + "\nRead At: " + (if n.readAt.Some? then show(n.readAt.value) else "N/A")
                + "\nFor Details: <" + DetailLink + IdText(n.licenseId) + LinkLabel;
    ConcatAffixes(head, tail);
    head + tail
  }

  /** The formatter of one row, as a function value. */
  function BlockOf(show: Timestamp -> string): Notification -> string {
    (n: Notification) => FormatBlock(n, show)
  }

  function Blocks(rows: seq<Notification>, show: Timestamp -> string): (r: seq<string>)
    ensures |r| == |rows|
    ensures forall i :: 0 <= i < |rows| ==> r[i] == FormatBlock(rows[i], show)
  {
    Map(rows, BlockOf(show))
  }

  /** The digest: the blocks of the rows, in order, joined by the separator line. */
  function Digest(rows: seq<Notification>, show: Timestamp -> string): string {
    Join(Blocks(rows, show), Separator)
  }

  lemma BlocksAppend(rows: seq<Notification>, n: Notification, show: Timestamp -> string)
    ensures Blocks(rows + [n], show) == Blocks(rows, show) + [FormatBlock(n, show)]
  {
    MapAppend(rows, n, BlockOf(show));
  }

  /** One more row adds the separator line and that row's block at the end. */
  lemma DigestAppend(rows: seq<Notification>, n: Notification, show: Timestamp -> string)
    requires |rows| > 0
    ensures Digest(rows + [n], show) == Digest(rows, show) + Separator + FormatBlock(n, show)
  {
    BlocksAppend(rows, n, show);
    JoinAppend(Blocks(rows, show), FormatBlock(n, show), Separator);
  }

  /** A single row's digest is its block alone; a longer digest opens with the
      first row's block followed by the separator. */
  lemma DigestStartsWithFirstBlock(rows: seq<Notification>, show: Timestamp -> string)
    requires |rows| > 0
    ensures |rows| == 1 ==> Digest(rows, show) == FormatBlock(rows[0], show)
    ensures |rows| > 1 ==> StartsWith(Digest(rows, show), FormatBlock(rows[0], show) + Separator)
  {
    var b := Blocks(rows, show);
    if |rows| > 1 {
      var d := Digest(rows, show);
      assert d == (b[0] + Separator) + Join(b[1..], Separator);
      ConcatAffixes(b[0] + Separator, Join(b[1..], Separator));
    }
  }

  /** A notification without a license id links to `license-detail/null`, even
      when it concerns a contract. */
  lemma ContractRowsLinkToNull(n: Notification, show: Timestamp -> string)
    requires n.licenseId.None?
    ensures EndsWith(FormatBlock(n, show), "\nFor Details: <" + DetailLink + "null" + LinkLabel)
  {
    var status := "\nRead Status: " + (if n.isRead != 0 then "Read" else "Not Read")
                  + "\nRead At: " + (if n.readAt.Some? then show(n.readAt.value) else "N/A");
    assert status + "\nFor Details: <" + DetailLink + IdText(n.licenseId) + LinkLabel
        == status + ("\nFor Details: <" + DetailLink + "null" + LinkLabel);
    SuffixOfSuffix(FormatBlock(n, show), status, "\nFor Details: <" + DetailLink + "null" + LinkLabel);
  }

  /** A NULL or empty message shows as "No Message". */
  lemma MessageFallback(n: Notification, show: Timestamp -> string)
    requires n.message.None? || n.message == Some("")
    ensures StartsWith(FormatBlock(n, show), "Notification: " + "No Message" + "\nExpiry: ")
  {
    var head := "Notification: " + "No Message" + "\nExpiry: ";
    var rest := ShowDate(show, n.expiryDate) + "\nCreated At: " + show(n.createdAt);
    assert "Notification: " + TextOr(n.message, "No Message") + "\nExpiry: " + ShowDate(show, n.expiryDate)
           + "\nCreated At: " + show(n.createdAt)
        == head + rest;
    PrefixOfPrefix(FormatBlock(n, show), head, rest);
  }

  /** An unread notification shows "Not Read", and one never read shows "N/A"
      as its read time, right before the link. */
  lemma ReadFallbacks(n: Notification, show: Timestamp -> string)
    requires n.isRead == 0 && n.readAt.None?
    ensures EndsWith(FormatBlock(n, show), "\nRead Status: " + "Not Read" + "\nRead At: " + "N/A"
                                           + "\nFor Details: <" + DetailLink + IdText(n.licenseId) + LinkLabel)
  {
  }

  /** A read notification shows "Read" and the time it was read. */
  lemma ReadShowsReadTime(n: Notification, show: Timestamp -> string)
    requires n.isRead != 0 && n.readAt.Some?
    ensures EndsWith(FormatBlock(n, show), "\nRead Status: " + "Read" + "\nRead At: " + show(n.readAt.value)
                                           + "\nFor Details: <" + DetailLink + IdText(n.licenseId) + LinkLabel)
  {
  }

  /** A notification without an expiry date shows the epoch as its expiry. */
  lemma NullExpiryShowsEpoch(n: Notification, show: Timestamp -> string)
    requires n.expiryDate.None?
    ensures StartsWith(FormatBlock(n, show), "Notification: " + TextOr(n.message, "No Message")
                                             + "\nExpiry: " + show(0) + "\nCreated At: " + show(n.createdAt))
  {
  }

  // ---------------------------------------------------------------------------
  // The retry loop

  const MaxRetries := 3
  const RetryDelayMs := 2000

  /** What the loop does, in order: a POST, or a pause before the next POST. */
  datatype Step = Post | Wait(ms: nat)

  datatype Delivery = Delivery(delivered: bool, posts: nat, trace: seq<Step>)

  /** Whether the i-th POST (counting from 0) succeeds. */
  predicate PostSucceeds(outcomes: seq<bool>, i: nat) {
    i < |outcomes| && outcomes[i]
  }

  /** `posts` POSTs with a two-second pause between consecutive ones and none
      after the last. */
  function Schedule(posts: nat): (r: seq<Step>)
    requires posts >= 1
    ensures |r| == 2 * posts - 1
    ensures r[0] == Post && r[|r| - 1] == Post
  {
    if posts == 1 then [Post] else [Post, Wait(RetryDelayMs)] + Schedule(posts - 1)
  }

  /** The loop's behaviour stated directly: it POSTs until the first success
      or the third failure, whichever comes first, and pauses between POSTs. */
  predicate Follows(outcomes: seq<bool>, d: Delivery) {
    && 1 <= d.posts <= MaxRetries
    && d.trace == Schedule(d.posts)
    && (forall i: nat :: i < d.posts - 1 ==> !PostSucceeds(outcomes, i))
    && (d.delivered <==> PostSucceeds(outcomes, d.posts - 1))
    && (!d.delivered ==> d.posts == MaxRetries)
  }

  /** The loop as a state machine, after `failures` failed POSTs. */
  function RetryFrom(outcomes: seq<bool>, failures: nat): (d: Delivery)
    requires failures < MaxRetries
    ensures 1 <= d.posts <= MaxRetries - failures
    ensures d.trace == Schedule(d.posts)
    ensures forall i: nat :: failures <= i < failures + d.posts - 1 ==> !PostSucceeds(outcomes, i)
    ensures d.delivered <==> PostSucceeds(outcomes, failures + d.posts - 1)
    ensures !d.delivered ==> d.posts == MaxRetries - failures
    decreases MaxRetries - failures
  {
    if PostSucceeds(outcomes, failures) then Delivery(true, 1, [Post])
    else if failures + 1 >= MaxRetries then Delivery(false, 1, [Post])
    else
      var rest := RetryFrom(outcomes, failures + 1);
      Delivery(rest.delivered, rest.posts + 1, [Post, Wait(RetryDelayMs)] + rest.trace)
  }

  /** `k` failed POSTs, each followed by its pause. */
  function Rounds(k: nat): (r: seq<Step>)
    ensures |r| == 2 * k
  {
    if k == 0 then [] else [Post, Wait(RetryDelayMs)] + Rounds(k - 1)
  }

  lemma {:induction false} ScheduleIsRounds(k: nat)
    ensures Schedule(k + 1) == Rounds(k) + [Post]
  {
    if k > 0 {
      ScheduleIsRounds(k - 1);
      assert Schedule(k + 1) == [Post, Wait(RetryDelayMs)] + Schedule(k);
    }
  }

  /** The `while` loop of the push handler: `attempts` counts failed POSTs,
      the third failure ends the handler, and a pause follows every other
      failure. */
  method PushWithRetries(outcomes: seq<bool>) returns (d: Delivery)
    ensures Follows(outcomes, d)
  {
    var attempts: nat := 0;
    var success := false;
    var trace: seq<Step> := [];
    while attempts < MaxRetries && !success
      invariant attempts < MaxRetries
      invariant forall i: nat :: i < attempts ==> !PostSucceeds(outcomes, i)
      invariant !success ==> trace == Rounds(attempts)
      invariant success ==> PostSucceeds(outcomes, attempts) && trace == Rounds(attempts) + [Post]
      decreases MaxRetries - attempts, if success then 0 else 1
    {
      trace := trace + [Post];
      if PostSucceeds(outcomes, attempts) {
        success := true;
      } else {
        attempts := attempts + 1;
        if attempts >= MaxRetries {
          ScheduleIsRounds(attempts - 1);
          d := Delivery(false, attempts, trace);
          return;
        }
        trace := trace + [Wait(RetryDelayMs)];
        assert Rounds(attempts) == [Post, Wait(RetryDelayMs)] + Rounds(attempts - 1);
        RoundsAppend(attempts - 1);
      }
    }
    ScheduleIsRounds(attempts);
    d := Delivery(true, attempts + 1, trace);
  }

  lemma {:induction false} RoundsAppend(k: nat)
    ensures Rounds(k + 1) == Rounds(k) + [Post, Wait(RetryDelayMs)]
  {
    if k > 0 {
      RoundsAppend(k - 1);
    }
  }

  /** The loop's outcome is determined by the POST answers: two deliveries that
      both follow the same answers are the same. */
  lemma FollowsUnique(outcomes: seq<bool>, d1: Delivery, d2: Delivery)
    requires Follows(outcomes, d1) && Follows(outcomes, d2)
    ensures d1 == d2
  {
  }

  /** The loop and the state machine agree on every sequence of POST answers. */
  lemma LoopMatchesMachine(outcomes: seq<bool>, d: Delivery)
    requires Follows(outcomes, d)
    ensures d == RetryFrom(outcomes, 0)
  {
    FollowsUnique(outcomes, d, RetryFrom(outcomes, 0));
  }

  /** Two failures and then a success: three POSTs, two pauses, delivered. */
  lemma SuccessOnThirdAttempt()
    ensures RetryFrom([false, false, true], 0)
         == Delivery(true, 3, [Post, Wait(RetryDelayMs), Post, Wait(RetryDelayMs), Post])
  {
  }

  /** Three failures end the loop: no fourth POST, even if it would succeed. */
  lemma GiveUpAfterThirdFailure()
    ensures RetryFrom([false, false, false, true], 0)
         == Delivery(false, 3, [Post, Wait(RetryDelayMs), Post, Wait(RetryDelayMs), Post])
  {
  }

  // ---------------------------------------------------------------------------
  // The push endpoint

  datatype PushReply = PushReply(status: int, error: bool, message: string, payload: Option<string>, trace: seq<Step>)

  const NothingToPushMessage := "No notifications to push to Google Chat."
  const PushedMessage := "All notifications retrieved and pushed successfully"
  const PushFailedMessage := "Failed to push data to Google Chat after multiple attempts."

  /** `getNotificationsForWebhook`: the resolver query, then nothing (no rows),
      or the digest POSTed with retries. */
  function GetNotificationsForWebhook(table: seq<Notification>, failure: Option<string>,
                                      outcomes: seq<bool>, show: Timestamp -> string): (r: PushReply)
    ensures failure.Some? ==> r == PushReply(500, true, failure.value, None, [])
    ensures failure.None? && |Latest(table)| == 0 ==> r == PushReply(200, false, NothingToPushMessage, None, [])
    ensures failure.None? && |Latest(table)| > 0 ==>
              var d := RetryFrom(outcomes, 0);
              && Follows(outcomes, d)
              && r.payload == Some(Digest(Latest(table), show))
              && r.trace == d.trace
              && (r.status == 200 <==> d.delivered)
              && (r.status == 500 <==> !d.delivered)
  {
    match failure
    case Some(msg) => PushReply(500, true, msg, None, [])
    case None =>
      var rows := Latest(table);
      if |rows| == 0 then PushReply(200, false, NothingToPushMessage, None, [])
      else
        var text := Digest(rows, show);
        var d := RetryFrom(outcomes, 0);
        if d.delivered then PushReply(200, false, PushedMessage, Some(text), d.trace)
        else PushReply(500, true, PushFailedMessage, Some(text), d.trace)
  }

  /** Whatever the POST answers, a push makes between one and three POSTs, or
      none at all when there is nothing to push, and pauses only between POSTs. */
  lemma PushPostsBounded(table: seq<Notification>, outcomes: seq<bool>, show: Timestamp -> string)
    ensures var r := GetNotificationsForWebhook(table, None, outcomes, show);
            (|Latest(table)| == 0 <==> r.trace == [])
            && (r.trace != [] ==> exists k :: 1 <= k <= MaxRetries && r.trace == Schedule(k))
  {
    var r := GetNotificationsForWebhook(table, None, outcomes, show);
    if |Latest(table)| > 0 {
      var d := RetryFrom(outcomes, 0);
      assert r.trace == Schedule(d.posts);
    }
  }

  /** The push sends the same rows the list endpoint returns, in the same order. */
  lemma PushSendsListedRows(table: seq<Notification>, outcomes: seq<bool>, show: Timestamp -> string)
    requires |Latest(table)| > 0
    ensures GetNotificationsForWebhook(table, None, outcomes, show).payload
         == Some(Digest(GetAllNotifications(table, None).data, show))
  {
  }

  /** A table whose rows all lack both ids gives nothing to push, however many
      rows it has. */
  lemma UnkeyedTableSendsNothing(table: seq<Notification>, outcomes: seq<bool>, show: Timestamp -> string)
    requires forall i :: 0 <= i < |table| ==> table[i].licenseId.None? && table[i].contractId.None?
    ensures GetNotificationsForWebhook(table, None, outcomes, show) == PushReply(200, false, NothingToPushMessage, None, [])
  {
    LatestEmptyIff(table);
  }
}
